=== FILE: README.md ===
# WD1797 floppy-disk controller emulator, modelled in Dafny

This project models the core of the WD1797 floppy-disk controller emulator in
`jwd1797.c`. The emulator is driven by three entry points:

- the host reads and writes six I/O ports, 0xB0 to 0xB5;
- a byte written to the command register is decoded and set up as one of
  eleven commands (Types I to IV);
- a clock call `doJWD1797Cycle(w, us)` refreshes the status bits and the
  index, HLT, HLD and TG43 lines, and advances the current command by one
  step. Each timer counts the elapsed microseconds only in its own phase:
  the index timers by the state of the index line, the HLT one-shot while
  armed, the step, settling, E-delay and byte-assembly timers in the
  command step that uses them, and the HLD idle timer while the controller
  is idle with HLD high.

The C code keeps everything in one mutable record. The model keeps it in one
immutable `Controller` datatype (`fdc.dfy`). Each entry point is a pure
function from a controller to a new controller:

- `Ports.Read` and `Ports.Write` model the port accesses;
- `Setup.Dispatch` models the command dispatch;
- `Clock.Cycle` models one clock call, and `Clock.Run` models `n` calls.

Registers and timers are modelled as follows:

- The numeric registers (track, sector, data) are `Byte`s (integers 0..255).
  A stored value is reduced modulo 256, as a store into an `unsigned char` is.
- The bit-field registers (command, status) are `bv8`.
- Timers are whole microseconds (`nat`). The one fractional limit, the
  26.67 µs byte-assembly time, is compared exactly in hundredths of a
  microsecond.
- Command names are a closed datatype in place of the C string literals.

The disk image and its geometry are part of the state. They are given when
the controller is reset.

The files follow the structure of the C source:

- `bits.dfy`: byte truncation and bit masks.
- `fdc.dfy`: the constants, the state record, the reset state, the head-load
  edge and command completion.
- `decoder.dfy`: the classification of a command byte. It also holds the
  datasheet's opcode table and command-byte layouts, which serve as an
  independent reference.
- `setup.dfy`: the busy rule and the setup of each command type.
- `ports.dfy`: the six ports.
- `stepping.dfy`: the Type I state machine. It covers the five stepping
  actions, the delayed head load, verify settling and HLT sampling.
- `transfer.dfy`: the Type II state machine (Read Sector and Write Sector)
  and the Type III gates. It covers the E delay, HLT sampling, TG43, the
  sector start offset, byte assembly, lost data and multiple records.
- `clock.dfy`: one clock call, in the order the C code uses. It also holds
  the controller invariant `Wf`, which is preserved by every entry point.
- `runs.dfy`: whole commands over many clock calls.
  - A Restore reaches cylinder 0.
  - A Seek reaches the data register.
  - A single-record Read Sector ends after exactly as many calls as bytes
    remain.
- `host.dfy`: a command driven from the ports to its end. A Seek target
  written to the data port is reached after a Seek command byte.
- `crc.dfy`: `computeCRC`. It holds the table loop as written, the corrected
  table, and the bit-serial CRC-CCITT reference.

Where a comment in the source and its code disagree, the model follows the
code:

- The comment at jwd1797.c:49-52 says that reading the status register
  resets INTRQ. `readJWD1797` does not touch INTRQ, and neither does
  `Ports.Read`.
- BUSY is clear and `command_done` is 0 after a reset. The controller
  invariant `Fdc.Wf` therefore states "BUSY implies not done" in general.
  It states "BUSY exactly while not done" only while a Type I to III command
  is current.
- A Force Interrupt written during a command makes the command type IV. The
  command step has no Type IV branch, so BUSY then stays set for good
  (`Clock.ForceInterruptFreezesBusy`).

## Model

| member | source | states |
|---|---|---|
| Bits.ToByte | jwd1797.c:181-214 | A value stored into an 8-bit register is kept modulo 256: it is unchanged below 256, and it differs from the original by a multiple of 256. |
| Fdc.Reset | jwd1797.c:56-136 | The reset state satisfies the controller invariant. It is idle (BUSY clear), ready, has INTRQ and DRQ low, has the head on cylinder 0 and has no current command type. |
| Fdc.Complete | jwd1797.c:580-586 | Ending a command sets it done and clears BUSY. INTRQ is raised when asked and otherwise kept. The HLD idle timer restarts at 0 and every other timer is kept. Every other status bit, the track, sector and data registers, the command, the head position and the index, TG43, DRQ, HLD and HLT lines are unchanged. |
| Fdc.CompleteIf | jwd1797.c:519-529 | A conditional end of a command. When the condition is false nothing changes. When it is true the command is done with BUSY clear and the HLD idle timer restarts at 0, with every other timer kept. Either way the other status bits, the track, sector and data registers, HLD, the command, the head and the byte pointer are kept. |
| Fdc.LoadHead | jwd1797.c:733-741 | An HLD rising edge: HLD goes high and HLT drops. The HLT one-shot is armed from 0 and the HLD idle timer restarts at 0. Registers, progress, flags, the command, the head, the pointer and the other lines and timers are kept. |
| Fdc.Cancel | jwd1797.c:712-720 | The not-ready abort of a Type II or III setup ends the command with BUSY clear and INTRQ raised. Unlike a normal end it touches no timer, so the HLD idle timer keeps its count. |
| Decoder.Decode | jwd1797.c:269-306 | Every command byte yields a command whose datasheet opcode it carries. The "something went wrong" branches are therefore unreachable. |
| Decoder.DecodeIsOpcodeTable | jwd1797.c:820-908 | The decoder agrees with the opcode table in both directions: a byte decodes to a command exactly when it carries that command's opcode. |
| Decoder.OpcodesDisjoint | jwd1797.c:820-908 | No byte carries the opcodes of two different commands. |
| Decoder.TypeOfDecode | jwd1797.c:271-301 | The type of a byte's command, stated on its bits alone. High nibble 1101 gives Type IV. Bit 7 clear gives Type I. High three bits 100 or 101 give Type II. High nibble 1100, 1110 or 1111 gives Type III. No byte is left without a type. |
| Decoder.TypeIFields | jwd1797.c:652-668 | A Type I byte built from an opcode, step rate and V, h and u flags decodes back to that command and those flags. u is recovered only for the Step family. |
| Decoder.TypeIIFields | jwd1797.c:694-747 | A Type II byte built from m, L, E, U and a0 decodes back to that command and those flags. a0 is recovered only for Write Sector. |
| Decoder.TypeIIIFields | jwd1797.c:749-784 | A Type III byte built from an opcode and the E and U flags decodes back to that command and those flags. |
| Decoder.ForceInterruptFields | jwd1797.c:786-817 | A Force Interrupt byte built from the four interrupt conditions decodes to Force Interrupt and carries each condition in its own bit. |
| Setup.SetupTypeI | jwd1797.c:652-692 | Type I setup does the following. It sets BUSY. It clears DRQ and INTRQ. It selects the step rate from the table 6, 12, 20, 30 ms. It decodes V from bit 2 and h from bit 3. It drives HLD by the h/V table: neither flag unloads the head; V alone defers the load; h loads the head at once unless it is already loaded. A fresh load drops HLT, arms the HLT one-shot from 0 and zeroes the HLD idle timer. The track, sector and data registers are kept. |
| Setup.TypeIStartStatus | jwd1797.c:910-918 | Type I setup sets BUSY, clears status bits 3 and 4, and keeps every other status bit. |
| Setup.NameTypeI | jwd1797.c:820-864 | Names the Type I command. Seek copies the head position into the track register. The Step family takes u from bit 4. Step-In forces the direction inward and Step-Out forces it outward. Restore and Seek leave the flags alone. Progress, HLD, HLT, every timer and the sector and data registers are kept. |
| Setup.SetupTypeII | jwd1797.c:694-747 | Type II setup on a drive that is not ready ends the command at once: it is done, BUSY is clear and INTRQ is raised. The Type II flags, HLD and every timer are left as they were. On a ready drive BUSY is set and INTRQ is low. U, E, L and m are decoded, SSO follows U, the head is loaded and the E-delay timer restarts. If HLD was low, HLT drops, the HLT one-shot is armed from 0 and the HLD idle timer is zeroed. DRQ is low either way, and the sector and data registers are kept. |
| Setup.TypeIIStartStatus | jwd1797.c:701-720 | Type II setup clears status bits 1, 2, 4, 5 and 6 and keeps bits 3 and 7. BUSY ends up set exactly when the drive is ready. |
| Setup.NameTypeII | jwd1797.c:866-884 | Names the Type II command. Write Sector also takes the data address mark from bit 0. Nothing else changes. |
| Setup.SetupTypeIII | jwd1797.c:749-784 | Type III setup has the same not-ready abort as Type II, which leaves the flags, HLD and every timer as they were. On a ready drive BUSY is set, INTRQ and DRQ are kept as they were, U and E are decoded, SSO follows U and the head is loaded. If HLD was low, HLT drops, the HLT one-shot is armed from 0 and the HLD idle timer is zeroed. The sector and data registers are kept either way. |
| Setup.TypeIIIStartStatus | jwd1797.c:753-768 | Type III setup clears status bits 2, 4 and 5 and keeps bits 1, 3, 6 and 7. BUSY ends up set exactly when the drive is ready. |
| Setup.NameTypeIII | jwd1797.c:886-908 | Names the Type III command from the high nibble of the command register: 1100 is Read Address, 1110 Read Track and 1111 Write Track. Nothing else changes. |
| Setup.SetupForceInterrupt | jwd1797.c:786-818 | Force Interrupt arms one interrupt condition per low-nibble bit. It asks for termination when the nibble is zero. It leaves registers, pins, the command name and the done flag alone. |
| Setup.Dispatch | jwd1797.c:269-306 | Busy rule: while BUSY is set, any command other than Force Interrupt changes nothing. Otherwise the command type becomes the type of the decoded byte. Either way the sector and data registers, the head and the disk are kept. |
| Setup.DispatchStartsCommand | jwd1797.c:269-306 | A non-Type-IV command written to an idle controller is named and started. BUSY is set exactly when it is Type I or the drive is ready, and exactly while the command is not done. A Type II or III command on a drive that is not ready raises INTRQ. |
| Setup.ForceInterruptKeepsCommand | jwd1797.c:786-818 | Force Interrupt neither sets nor clears BUSY, renames the current command, or marks it done. |
| Setup.DispatchPreservesWf | jwd1797.c:269-306 | Dispatching keeps the controller invariant: BUSY implies not done, a Type I-III command is BUSY exactly while not done and carries a name of its type, and the index-pulse timer is zero while the line is low. |
| Ports.Read | jwd1797.c:139-178 | Ports 0xB0 to 0xB3 return the status, track, sector and data registers. Ports 0xB4, 0xB5 and every other port read 0 and change nothing. Reading changes the controller only by dropping DRQ, and only for a data-port read during a Type II command. INTRQ is never touched. |
| Ports.Write | jwd1797.c:181-214 | A write to the track, sector or data port stores the value modulo 256 and changes nothing else. A write to the command port stores the byte and dispatches it; while BUSY, a non-Type-IV byte only replaces the command register. Writes to the control latch 0xB4, the status port 0xB5 and any other port change nothing. |
| Ports.WriteThenRead | jwd1797.c:139-214 | A value written to the track, sector or data port reads back from the same port as the value modulo 256. |
| Ports.ReadTwice | jwd1797.c:139-178 | A second read of a port returns the same value and changes nothing. |
| Ports.StatusReadShowsBusy | jwd1797.c:147-149 | The value read from the status port has bit 0 set exactly when the controller is BUSY. |
| Ports.PortsPreserveWf | jwd1797.c:139-214 | Port reads and writes keep the controller invariant. |
| Ports.TypeICommandByte | jwd1797.c:181-190 | A Type I command byte, laid out as the datasheet gives it and written to an idle controller, starts that command. The step rate, V, h and (for the Step family) u are the ones it encodes. Step-In and Step-Out fix the direction, and Seek loads the track register from the head position. The command is neither done nor past its action. With h set on an unloaded head, the head is loaded with HLT low, its one-shot armed from 0 and the idle timer zeroed. The sector and data registers are kept, so a Seek target written before the command stays in place. |
| Ports.StartTypeI | jwd1797.c:652-692 | Dispatching a Type I command register on an idle controller sets up the command, step rate and flags its bits select. It also keeps the sector and data registers and loads the head as `Ports.TypeICommandByte` states. |
| Ports.TypeIICommandByte | jwd1797.c:181-190 | A Type II command byte written to an idle controller with a ready drive starts that command. It is BUSY with INTRQ and DRQ low, and m, L, E, U (and a0 for Write Sector) are the flags it encodes. An unloaded head is loaded with HLT low, its one-shot armed from 0 and the idle timer zeroed. The sector and data registers are kept. |
| Ports.TypeIIICommandByte | jwd1797.c:181-190 | A Type III command byte written to an idle controller with a ready drive starts that command. It is BUSY with INTRQ and DRQ kept, and E and U are the flags it encodes, with SSO following U. An unloaded head is loaded with HLT low, its one-shot armed from 0 and the idle timer zeroed. The sector and data registers are kept. |
| Ports.NotReadyCommandByte | jwd1797.c:712-720 | A Type II or III command byte written to an idle controller whose drive is not ready ends at once: done, BUSY clear and INTRQ raised. HLD and every timer are left as they were. |
| Ports.NotReadyDispatch | jwd1797.c:712-720 | Dispatching a Type II or III command register on an idle controller whose drive is not ready ends the command at once, with BUSY clear and INTRQ raised, and leaves HLD and every timer alone. |
| Ports.ForceInterruptByte | jwd1797.c:786-818 | A Force Interrupt byte written to the command port arms exactly the conditions it encodes. It asks for termination exactly when it encodes none, and otherwise keeps the termination request. |
| Stepping.RestoreAction | jwd1797.c:318-341 | On cylinder 0 (TR00 low) Restore zeroes the track register and ends the action without moving. Off cylinder 0 it steps out, by one cylinder and one track of bytes with the step timer restarted, exactly when the step-rate interval has elapsed. Otherwise only the step timer counts. The head never moves in any other way. |
| Stepping.SeekAction | jwd1797.c:343-377 | Seek ends the action exactly when the track and data registers agree. It steps one cylinder towards the data register, with the byte pointer following and the track register set to the new cylinder, exactly when they differ and the interval has elapsed. Otherwise the head and the track register stay. |
| Stepping.StepAction | jwd1797.c:379-419 | Step moves one cylinder in the direction last driven exactly when it is not clamped and the interval has elapsed. It is clamped going out at cylinder 0, which zeroes the track register, and going in at the last cylinder. Clamped or stepped, the action ends. A step sets the track register to the new cylinder under u and otherwise leaves it. |
| Stepping.StepInAction | jwd1797.c:421-443 | Step-In moves one cylinder in exactly when it is not at the last cylinder and the interval has elapsed. Clamped or stepped, the action ends. The track register follows the head only after a step under u. |
| Stepping.StepOutAction | jwd1797.c:445-471 | Step-Out moves one cylinder out exactly when it is not at cylinder 0 and the interval has elapsed. At cylinder 0 it zeroes the track register. Clamped or stepped, the action ends. The track register follows the head only after a step under u. |
| Stepping.DelayedLoad | jwd1797.c:480-490 | A deferred head load happens exactly when one is pending and HLD is low. Then HLD rises, HLT drops, the HLT one-shot is armed from 0, the idle timer restarts and the deferral is cleared. Otherwise nothing changes. Either way the command, registers, progress flags and INTRQ are unchanged. |
| Stepping.Settle | jwd1797.c:504-514 | Verify settling moves only the settling timer and flag. Registers, pins and the done flag are unchanged. |
| Stepping.PostAction | jwd1797.c:479-532 | After the stepping action, a step either ends the command with BUSY clear or leaves the status register exactly as it was. No status bit other than BUSY ever changes. |
| Stepping.TypeIStep | jwd1797.c:314-534 | A Type I command step keeps the command. It ends the command only with BUSY clear, and otherwise leaves the status register unchanged. |
| Stepping.StepStaysOnDisk | jwd1797.c:318-471 | With the head on the disk, Restore, Step, Step-In and Step-Out keep it on the disk. The head moves by at most one cylinder per step, and only while the action is running and the step-rate interval has elapsed. |
| Stepping.ClampedStepEndsAction | jwd1797.c:318-471 | A refused step still ends the action. At cylinder 0, Restore, an outward Step and Step-Out zero the track register. At the last cylinder, an inward Step and Step-In leave every register as it was. |
| Stepping.TrackRegisterRule | jwd1797.c:379-471 | The Step family changes the track register only to follow the head under u or to zero it at the cylinder-0 clamp. Restore changes it only to 0, on reaching cylinder 0, and ends its action then. |
| Stepping.SeekStep | jwd1797.c:343-377 | A Seek step keeps the track register equal to the head position. It ends the action exactly when the track and data registers agree. It moves the head exactly when they differ and the interval has elapsed, and then one cylinder closer to the target. With a target below the cylinder count the head stays on the disk. |
| Stepping.PostActionCompletion | jwd1797.c:479-532 | Once the action is over, a command without V ends on that step with BUSY clear and INTRQ raised. With V it ends exactly when settling had finished and HLT is high. Settling finishes exactly when its timer reaches 30 ms. |
| Transfer.EDelay | jwd1797.c:538-547 | The E delay moves only its own timer and flag. Registers, pins and the done flag are unchanged. |
| Transfer.PlacePointer | jwd1797.c:553-557 | When the start byte is not yet set, the byte pointer and the start byte both become the offset of the sector the registers select, and the start byte is marked set. When it is already set nothing changes. No register, pin, timer or other flag changes. |
| Transfer.UpdateTg43 | jwd1797.c:925-929 | TG43 is driven high exactly when the head is beyond cylinder 43, and nothing else changes. |
| Transfer.AssembleByte | jwd1797.c:564-571 | Assembling a byte leaves the command, progress, sector register, TG43 and every status bit except bit 2 unchanged. |
| Transfer.EndOfSector | jwd1797.c:572-600 | At the end of a sector, either the command ends with BUSY clear or the status register is unchanged. The data register, the byte pointer, DRQ and TG43 are kept. |
| Transfer.ReadSectorStep | jwd1797.c:560-602 | A Read Sector step changes no status bit other than BUSY and bit 2. It ends the command only with BUSY clear. |
| Transfer.TypeIIStep | jwd1797.c:536-616 | A Type II step keeps the command. It changes no status bit other than BUSY and bit 2, and ends the command only with BUSY clear. |
| Transfer.TypeIIIStep | jwd1797.c:618-641 | A Type III step changes no register and never ends the command. |
| Transfer.TargetByteInImage | jwd1797.c:1090-1101 | For a track below the cylinder count and a sector from 1 to the sectors per track, the selected sector lies wholly inside the two-sided image. |
| Transfer.TargetByteDigits | jwd1797.c:1090-1101 | The start offset counts whole sectors. Side, track and sector − 1 are the digits of one mixed-radix number, in units of the sector length. |
| Transfer.TargetByteInjective | jwd1797.c:1090-1101 | Distinct in-range sectors start at distinct offsets: side, track and sector can be read back from the offset. |
| Transfer.ByteDelivery | jwd1797.c:553-571 | Past the gates and with the assembly time elapsed, a Read Sector step puts the byte under the pointer into the data register. That byte is the sector's first byte when the pointer was not yet placed. The step raises DRQ and advances the pointer. Status bit 2 is set exactly when DRQ was still high or the bit was already set. |
| Transfer.PlacedEarly | jwd1797.c:553-563 | A first step past the gates before the byte-assembly time elapses places the pointer on the selected sector and counts on the assembly timer. It delivers no byte, leaves the registers and DRQ alone and does not end the command. |
| Transfer.FirstByte | jwd1797.c:548-602 | The first byte step of a single-record read places both the pointer and the start byte on the selected sector. It delivers that sector's first byte with DRQ high and leaves the pointer one past it. It ends the command, with BUSY clear and INTRQ raised, exactly when the sector is a single byte long. |
| Transfer.PlacedByte | jwd1797.c:560-571 | With the pointer still on the start byte, a due byte step delivers the byte under it with DRQ high and moves the pointer on by one. The start byte, the Type II flags and the image are kept. |
| Transfer.PlacedByteEnds | jwd1797.c:572-600 | That step ends the command exactly when the sector is a single byte long, then with BUSY clear and INTRQ raised. |
| Transfer.NoByteEarly | jwd1797.c:561-563 | Before the assembly time has elapsed, a Read Sector step changes no register and no DRQ, and does not end. |
| Transfer.SingleRecordEnd | jwd1797.c:572-600 | A single-record read ends, with BUSY clear and INTRQ raised, exactly on the byte that completes the sector. |
| Transfer.MultiRecordEnd | jwd1797.c:572-589 | At the end of a sector a multi-record read increments the sector register modulo 256. It ends, with BUSY clear and INTRQ, exactly when the register exceeds the sectors per track. Otherwise the pointer is placed afresh on the next step. |
| Transfer.WriteSectorEnds | jwd1797.c:604-614 | Write Sector ends on its first step past the gates, with BUSY clear and INTRQ left as it was. |
| Transfer.DelayGate | jwd1797.c:537-547 | While the E delay runs, a Type II or III step changes no register, pin or byte pointer. The delay finishes exactly when its timer reaches 30 ms. |
| Transfer.HltGate | jwd1797.c:548-549 | After the E delay, a Type II or III step with HLT low changes nothing. |
| Clock.SenseLines | jwd1797.c:223-233 | Status bit 7 is set exactly when the drive is not ready or master reset is held. TR00 then agrees with the head position. Nothing else changes. |
| Clock.IndexRise | jwd1797.c:1008-1014 | Raising the index line changes only that line, the timers and status bit 1. |
| Clock.IndexFall | jwd1797.c:1016-1022 | Dropping the index line changes only that line, the timers and status bit 1. |
| Clock.IndexPulse | jwd1797.c:1003-1023 | The index-pulse handler changes only the index line, its timers and status bit 1. |
| Clock.IndexPulseEdges | jwd1797.c:1003-1023 | A low index line rises exactly when the encounter timer reaches 200 ms. A high line falls exactly when the pulse timer reaches 20 µs. During a Type I command status bit 1 follows each edge. Otherwise the status register is untouched. |
| Clock.IndexPulseKeepsWf | jwd1797.c:1003-1023 | The pulse timer is zero whenever the index line is low, before and after the handler. |
| Clock.HltTimer | jwd1797.c:1043-1055 | The HLT one-shot changes only HLT, its timer and its arming, and never drops HLT. |
| Clock.HltOneShot | jwd1797.c:1043-1055 | An armed one-shot raises HLT and disarms exactly when its timer reaches 45 ms. A disarmed one changes nothing. |
| Clock.TypeStatus | jwd1797.c:239-257 | The per-type status refresh touches only bits 1, 2 and 5. |
| Clock.TypeStatusBits | jwd1797.c:239-257 | During Type I, S5 reports HLD and HLT both high and S2 reports TR00. During Type II and III, S1 reports DRQ. Bits 0, 3, 4, 6 and 7 are never touched. |
| Clock.CommandStep | jwd1797.c:310-643 | A command step keeps the command. It ends it only with BUSY clear, and otherwise leaves BUSY unchanged. No status bit other than BUSY and bit 2 changes. |
| Clock.HldIdle | jwd1797.c:1025-1041 | The idle unload touches only HLD and its timer. |
| Clock.HldIdleRule | jwd1797.c:1025-1041 | While BUSY, the idle timer is held at 0 and HLD is kept. When idle with HLD high, HLD drops exactly when the idle timer reaches 3 s. A low HLD stays low. |
| Clock.BeforeStep | jwd1797.c:220-257 | The per-cycle line and timer handling before the command step keeps the command, its progress, BUSY and the head position. It leaves TR00 sensed and status bit 7 reporting not ready. |
| Clock.Tg43Cycle | jwd1797.c:536-550 | A whole clock call of a Type II or III command past its E delay and HLT gates leaves TG43 high exactly when the head is beyond cylinder 43. The idle-timer handling at the end of the call does not change it. |
| Clock.CompleteRestartsIdleCount | jwd1797.c:1025-1041 | Because a normal end restarts the HLD idle timer, a loaded head survives an idle clock call shorter than 3 s after it. After the not-ready abort, which keeps the count, the same call unloads the head once the count reaches 3 s. |
| Clock.NotReadyBit | jwd1797.c:223-228 | After a clock call, status bit 7 is set exactly when the drive is not ready or master reset is held. |
| Clock.Cycle | jwd1797.c:220-265 | A clock call keeps the command. Once the command is done, later calls no longer change its progress, the head position or the byte pointer. A command a call ends is left with BUSY clear. |
| Clock.Run | jwd1797.c:220-265 | Any number of clock calls keep the command. After it is done they change neither its progress nor the head or the byte pointer. |
| Clock.CyclePreservesWf | jwd1797.c:220-265 | A clock call keeps the controller invariant. |
| Clock.RunPreservesWf | jwd1797.c:220-265 | Any number of clock calls keeps the controller invariant. |
| Clock.ForceInterruptFreezesBusy | jwd1797.c:259-262 | A Force Interrupt written during a command leaves BUSY set and the type at IV through any number of clock calls. |
| Runs.RestoreCycle | jwd1797.c:318-341 | One clock call at least one step-rate interval long, in a Restore whose action is running, steps the head out by one cylinder when it is off cylinder 0. On cylinder 0 the action ends with the track register 0. |
| Runs.RestoreWait | jwd1797.c:326-340 | A call too short for the interval to elapse, with the head off cylinder 0, only counts on the step timer. The head, the track register and the byte pointer stay, and the action goes on. |
| Runs.RestoreRun | jwd1797.c:318-341 | From cylinder k, with calls one step interval apart, a Restore ends its action after k + 1 calls with head and track register at 0. |
| Runs.RestoreAdvance | jwd1797.c:318-341 | A Restore k > 0 cylinders out is still restoring after one clock call, k - 1 cylinders out. |
| Runs.RestoreNotBefore | jwd1797.c:318-341 | The same Restore is still stepping after its first k calls, now on cylinder 0. Its action has not ended yet. |
| Runs.SeekCycle | jwd1797.c:343-377 | One clock call at least one step-rate interval long, in a Seek whose action is running with the track register on the head, moves the head and track register one cylinder towards the data register. When the registers agree it ends the action instead. |
| Runs.SeekWait | jwd1797.c:343-377 | A call too short for the interval to elapse, with the registers apart, only counts on the step timer. The head, both registers and the byte pointer stay, and the action goes on. |
| Runs.SeekRun | jwd1797.c:343-377 | A Seek ends its action after as many calls as the track and data registers are apart, plus one, with head and track register on the target. |
| Runs.SeekAdvance | jwd1797.c:343-377 | A Seek whose track register is short of the data register is still seeking after one clock call, one cylinder closer to the same target. |
| Runs.SeekNotBefore | jwd1797.c:343-377 | The same Seek is still stepping after as many calls as the registers are apart, with the track register on the target. Its action has not ended yet. |
| Host.SeekFromPorts | jwd1797.c:181-190 | A target written to the data port, followed by a Seek command byte written to an idle controller with the head on a cylinder below 256, starts a Seek whose target is the written value modulo 256. With calls one step-rate interval apart, the head and track register reach that target after as many calls as the head was away, plus one, and the action ends. |
| Runs.ReadCycle | jwd1797.c:560-602 | One clock call at least one byte time long, in a single-record read past its E-delay and HLT gates with the pointer placed, delivers the byte under the pointer with DRQ high and advances the pointer. On the last byte of the sector it ends the command with BUSY clear and INTRQ raised. |
| Runs.ReadWait | jwd1797.c:560-563 | A call too short for the byte-assembly time to elapse only counts on the assembly timer. The data register, the pointer and DRQ stay, and the read goes on. |
| Runs.RunLast | jwd1797.c:220-265 | n + 1 clock calls are n calls followed by one more. |
| Runs.ReadRun | jwd1797.c:560-602 | A single-record read with k + 1 bytes left ends after k + 1 clock calls, with BUSY clear and INTRQ raised. |
| Runs.ReadNotBefore | jwd1797.c:560-602 | The same read is still busy after k calls, with exactly one byte left. |
| Runs.ReadAdvance | jwd1797.c:560-602 | A read with more than one byte left is still reading after one clock call, with one byte fewer left. |
| Runs.ReadStartCycle | jwd1797.c:548-602 | The first clock call of a single-record read past its gates, at least one byte time (26.67 µs) long, places the pointer on the selected sector and delivers its first byte. The rest of the sector is then left to read, or a one-byte sector ends the command. |
| Runs.ReadStartWait | jwd1797.c:548-563 | A first clock call past the gates shorter than the remaining byte-assembly time only places the pointer on the selected sector and counts on the assembly timer. The data register and DRQ stay, and the read goes on. |
| Runs.ReadSectorRun | jwd1797.c:548-602 | From the first call past the gates, a single-record read of a sector of k + 1 bytes ends after k + 1 clock calls, with BUSY clear and INTRQ raised. |
| Runs.ReadSectorNotBefore | jwd1797.c:548-602 | The same read of a sector of n + 2 bytes is still BUSY and not done after n + 1 calls. |
| Crc.ResultBytes | jwd1797.c:953-954 | The result pair holds the low byte first, then the high byte. Both are bytes, and together they recombine into the register. |
| Crc.ComputeCrc | jwd1797.c:932-955 | The corrected computation returns the bit-serial CRC-CCITT (polynomial 0x1021, MSB first) of the message bytes, each reduced to its low eight bits. The register starts from the initial value cast to 16 bits, and the result is returned low byte first. |
| Crc.TableDrivenIsSerial | jwd1797.c:950-952 | For every register and byte, one table-driven update equals feeding the byte's eight bits one at a time. |
| Crc.TableEntryIsSerial | jwd1797.c:938-948 | Each corrected table entry is the bit-serial CRC of its index from a zero register. |
| Crc.ShiftStepIsShift | jwd1797.c:941-946 | One pass of the inner table loop is one clock of the CRC register applied to temp ^ a, up to the shifted a. |
| Crc.TableLoopIsShift | jwd1797.c:941-946 | The corrected inner loop over j passes clocks temp ^ a j times, up to a shifted out by j places. |
| Crc.FeedBitsIsTableLoop | jwd1797.c:941-946 | Feeding k bits of a byte serially is k passes of the corrected inner loop with the byte in the top half. |
| Crc.ShiftLinear | jwd1797.c:942-945 | One register clock distributes over exclusive-or. |
| Crc.ShiftNLinear | jwd1797.c:941-946 | Any number of register clocks distribute over exclusive-or. |
| Crc.SerialCrcSnoc | jwd1797.c:950-952 | The reference CRC of a message extended by one byte is that byte fed into the reference CRC of the message. |
| Crc.ComputeCrcAsWritten | jwd1797.c:932-955 | The result pair of the code as written is the low and high byte of the register its table produces. |
| Crc.AsWrittenTableIgnoresLowBits | jwd1797.c:938-948 | The table the code builds depends on bit 7 of the index alone. |
| Crc.TableLoopAsWritten | jwd1797.c:938-948 | From a zero register, the loop as written never adds the polynomial when bit 15 of `a` is clear. |
| Crc.TableEntryAsWritten | jwd1797.c:938-948 | The table entry the code builds is 0 whenever bit 7 of its index is clear. |
| Crc.AsWrittenLoopSeesBit15 | jwd1797.c:938-948 | The loop as written depends on bit 15 of `a` alone: two values agreeing in that bit give the same result. |
| Crc.AsWrittenCounterexample | jwd1797.c:938-954 | As written, the message [0x01] from a zero register gives the result (0, 0), where CRC-CCITT gives 0x1021. |

## Left out

- File I/O. `diskImageToCharArray` reads the image with `fopen` and `fread`; the model takes the image as a byte sequence and the geometry as values in the state instead of the fixed 40 × 9 × 512.
- `newJWD1797`'s allocation, the global image pointer, and every `printf` diagnostic (`printAllRegisters`, `printCommandFlags`, `printBusyMsg`): they have no effect on the controller.
- `master_timer`: a debug clock that nothing reads.
- The data shift register and the CRC register fields: they are only zeroed at reset.
- The unused per-type command timers: nothing reads them.
- Type III command bodies. Read Address only prints, and Read Track and Write Track have none. The model covers their setup, the E-delay and HLT gates and TG43, and a Type III command never completes.
- `getNextIDField`: an empty stub.
- The effects of Force Interrupt. Its interrupt conditions and `terminate_command` are set but never read by the code, so only their decoding is modelled.
- `jwd1797.h`: an older declaration of the state record. Field names and types are taken from their uses in `jwd1797.c`.
- `testFunctions.c`, `testFunctions.h` and `testMain.c`: a demonstration driver with no checks.
- Floating-point time: `double` microsecond timers become whole microseconds. A clock call's elapsed time is a `nat`.
- Bytes read outside the image: the C indexes the array without a bound check. `Transfer.ImageByte` reads such a position as 0.
- A sector register of 0 makes the C start offset point one sector before the track. The model computes the same offset and reads positions outside the image as 0.
- The C builds a 256-entry table once per call. The model gives table entry `i` as a function of `i` (`Crc.TableEntry`, `Crc.TableEntryAsWritten`).
- Runs.RestoreCycle: covers a call at least one step-rate interval long. Runs.RestoreWait covers a shorter call, off cylinder 0, when the step timer and the call together stay below the interval. A mix of call lengths over a whole Restore is not stated.
- Runs.SeekCycle: covers a call at least one step-rate interval long, with the track register on the head. Runs.SeekWait covers a shorter call. A mix of call lengths over a whole Seek is not stated.
- Runs.ReadCycle: covers a call at least one byte time (26.67 µs) long, in a single-record read past its gates with the pointer placed. Runs.ReadWait covers a shorter call, and Runs.ReadStartCycle the call that places the pointer. Multi-record reads over many calls are stated only one step at a time (Transfer.MultiRecordEnd).
- Runs.ReadStartCycle: covers a first call past the gates at least one byte time (26.67 µs) long, in a single-record read. Runs.ReadStartWait covers a shorter first call. Multi-record reads are left to Transfer.MultiRecordEnd.
- Runs.RestoreRun: assumes every clock call is at least one step-rate interval long, so each call takes one step. Shorter calls only delay the steps, and one call never takes two steps.
- Runs.SeekRun: makes the same assumption about the length of a clock call.
- Runs.RestoreAdvance and Runs.RestoreNotBefore: make the same assumption as Runs.RestoreRun.
- Runs.SeekAdvance and Runs.SeekNotBefore: make the same assumption as Runs.SeekRun.
- Host.SeekFromPorts: makes the same assumption as Runs.SeekRun. It also requires a head position of 0-255, so that Seek's copy of the head position into the track register is exact.
- Runs.ReadRun: assumes every clock call is at least one byte time (26.67 µs) long and the read is past its E-delay and HLT gates.
- Runs.ReadAdvance and Runs.ReadNotBefore: make the same assumptions as Runs.ReadRun.
- Runs.ReadSectorRun and Runs.ReadSectorNotBefore: make the same assumption about the length of a clock call, and start past the E-delay and HLT gates.
- Stepping.PostAction, Stepping.TypeIStep, Transfer.ReadSectorStep, Transfer.TypeIIStep, Transfer.EndOfSector and Clock.CommandStep: require the command not to be done, because the clock call runs a command step only then (jwd1797.c:260-262).
- Stepping.StepStaysOnDisk: requires TR00 to agree with the head position. The clock call establishes this before every command step (jwd1797.c:232-233, `Clock.BeforeStep`).

## Findings

| source | as written | input that shows it | evidently intended | confidence | as-written member | corrected member |
|---|---|---|---|---|---|---|
| jwd1797.c:938-948 | The table loop sets `a = i << 8` once and never shifts it. Every pass tests bit 15 of `temp ^ a`, so each entry depends on bit 7 of `i` alone. | initial value 0, message [0x01]: `table[1]` is 0, so the result is (0x00, 0x00) | The standard table-driven CRC-CCITT shifts `a` with `temp`, so that `table[1]` is 0x1021 and the result is (0x21, 0x10) | not executed | Crc.AsWrittenCounterexample | Crc.TableDrivenIsSerial |

=== FILE: bits.dfy ===
/**
 * Byte-level helpers shared by the controller model.
 *
 * The controller's numeric registers (track, sector, data) are `unsigned char`
 * fields that receive wider integers; the bit-field registers (command, status)
 * are read and written through masks. The first kind is modelled as `Byte`,
 * the second as `bv8`.
 */
module Bits {

  /** An 8-bit register that holds a number. */
  type Byte = b: int | 0 <= b < 256

  /** Storing an integer into an `unsigned char` keeps it modulo 256. */
  function ToByte(v: int): (b: Byte)
    ensures 0 <= v < 256 ==> b == v
    ensures (v - b) % 256 == 0
  {
    v % 256
  }

  /** The same truncation, into a bit-field register. */
  function ToBv8(v: int): bv8
  {
    ToByte(v) as bv8
  }

  /** The mask selecting bit `k` of a bit-field register. */
  function BitMask(k: nat): bv8
    requires k < 8
  {
    match k
    case 0 => 0x01
    case 1 => 0x02
    case 2 => 0x04
    case 3 => 0x08
    case 4 => 0x10
    case 5 => 0x20
    case 6 => 0x40
    case _ => 0x80
  }

  /** Bit `k` of a bit-field register. */
  predicate Bit(b: bv8, k: nat)
    requires k < 8
  {
    b & BitMask(k) != 0
  }

  /** A bit-field byte widened to an integer and stored back is unchanged. */
  lemma ToBv8Widened(b: bv8)
    ensures ToBv8(b as int) == b
  {
  }
}

=== FILE: clock.dfy ===
/**
 * One clock call of the controller, in a fixed order: lines sensed, index
 * pulse, head-load timing, status bits of the current type, the command
 * step, and the idle head unload. Each timer counts the elapsed time only
 * in its own phase: the index timers by the state of the index line, the
 * HLT one-shot while armed, the command timers in the step that uses them,
 * and the idle timer while idle with HLD high.
 */
module Clock {
  import opened Bits
  import opened Fdc
  import opened Stepping
  import opened Transfer

  /**
   * `r` runs the same command as `s`, at the same point: the per-cycle line
   * and timer handling never touches these fields.
   */
  predicate SameCommand(r: Controller, s: Controller)
  {
    && r.cmdType == s.cmdType && r.cmdName == s.cmdName && r.progress == s.progress
    && r.typeI == s.typeI && r.typeII == s.typeII && r.disk == s.disk
    && r.currentTrack == s.currentTrack && r.diskPointer == s.diskPointer && r.rwStartByte == s.rwStartByte
    && r.timers.step == s.timers.step && r.timers.assembleByte == s.timers.assembleByte
  }

  /** Status bit 7 from READY and master reset; the TR00 line from the head position. */
  function SenseLines(s: Controller): (r: Controller)
    ensures r.cmdType == s.cmdType && r.cmdName == s.cmdName && r.progress == s.progress
    ensures Busy(r) == Busy(s) && Sensed(r) && r.currentTrack == s.currentTrack
    ensures r.pins.indexPulse == s.pins.indexPulse && r.timers == s.timers
    ensures r.regs.status & NotReadyMask != 0 <==> !s.pins.ready || !s.pins.notMasterReset
    ensures SameCommand(r, s) && r.regs == s.regs.(status := r.regs.status)
    ensures r.pins == s.pins.(notTrack00 := r.pins.notTrack00)
  {
    var status := if s.pins.ready && s.pins.notMasterReset then s.regs.status & !NotReadyMask
                  else s.regs.status | NotReadyMask;
    s.(regs := s.regs.(status := status), pins := s.pins.(notTrack00 := s.currentTrack != 0))
  }

  /** Status bit 1 as the index line drives it, during a Type I command only. */
  function IndexStatus(s: Controller, high: bool): bv8
  {
    if s.cmdType != TypeI then s.regs.status
    else if high then s.regs.status | IndexOrDrqMask
    else s.regs.status & !IndexOrDrqMask
  }

  /** A low index line rises once the encounter timer reaches 200 ms, which restarts that timer. */
  function IndexRise(s: Controller, dt: nat): (r: Controller)
    ensures r.cmdType == s.cmdType && r.cmdName == s.cmdName && r.progress == s.progress
    ensures r.pins == s.pins.(indexPulse := r.pins.indexPulse) && r.currentTrack == s.currentTrack
    ensures r.regs.status & !IndexOrDrqMask == s.regs.status & !IndexOrDrqMask
    ensures r.timers.indexPulse == s.timers.indexPulse
    ensures SameCommand(r, s) && r.regs == s.regs.(status := r.regs.status)
  {
    var encounter := s.timers.indexEncounter + dt;
    var rise := !s.pins.indexPulse && encounter >= IndexEncounterUs;
    s.(pins := s.pins.(indexPulse := s.pins.indexPulse || rise),
       regs := s.regs.(status := if rise then IndexStatus(s, true) else s.regs.status),
       timers := s.timers.(indexEncounter := if rise then 0 else encounter))
  }

  /** A high index line falls once the pulse timer reaches 20 us, which clears that timer. */
  function IndexFall(s: Controller, width: nat): (r: Controller)
    ensures r.cmdType == s.cmdType && r.cmdName == s.cmdName && r.progress == s.progress
    ensures r.pins == s.pins.(indexPulse := r.pins.indexPulse) && r.currentTrack == s.currentTrack
    ensures r.regs.status & !IndexOrDrqMask == s.regs.status & !IndexOrDrqMask
    ensures SameCommand(r, s) && r.regs == s.regs.(status := r.regs.status)
  {
    var fall := s.pins.indexPulse && width >= IndexPulseUs;
    s.(pins := s.pins.(indexPulse := s.pins.indexPulse && !fall),
       regs := s.regs.(status := if fall then IndexStatus(s, false) else s.regs.status),
       timers := s.timers.(indexPulse := if fall then 0 else width))
  }

  /**
   * The index hole: a pulse rises once the encounter timer reaches 200 ms
   * with the line low, and falls once the pulse timer reaches 20 us; during
   * a Type I command status bit 1 follows each edge. The pulse timer counts
   * only while the line was high when the call began.
   */
  function IndexPulse(s: Controller, dt: nat): (r: Controller)
    ensures r.cmdType == s.cmdType && r.cmdName == s.cmdName && r.progress == s.progress
    ensures r.pins == s.pins.(indexPulse := r.pins.indexPulse) && r.currentTrack == s.currentTrack
    ensures r.regs.status & !IndexOrDrqMask == s.regs.status & !IndexOrDrqMask
    ensures SameCommand(r, s) && r.regs == s.regs.(status := r.regs.status)
  {
    var width := if s.pins.indexPulse then s.timers.indexPulse + dt else s.timers.indexPulse;
    IndexFall(IndexRise(s, dt), width)
  }

  /** The head-load timing one-shot: HLT rises 45 ms after it is armed, and the one-shot disarms. */
  function HltTimer(s: Controller, dt: nat): (r: Controller)
    ensures r.cmdType == s.cmdType && r.cmdName == s.cmdName && r.progress == s.progress && r.regs == s.regs
    ensures r.pins == s.pins.(hlt := r.pins.hlt) && r.currentTrack == s.currentTrack
    ensures r.timers.indexPulse == s.timers.indexPulse
    ensures SameCommand(r, s) && (s.pins.hlt ==> r.pins.hlt)
  {
    var t := s.timers.hlt + dt;
    var fire := s.hltTimerActive && t >= HeadLoadTimingUs;
    s.(pins := s.pins.(hlt := s.pins.hlt || fire),
       timers := s.timers.(hlt := if fire then 0 else if s.hltTimerActive then t else s.timers.hlt),
       hltTimerActive := s.hltTimerActive && !fire)
  }

  /**
   * Status bits owned by the current type: for Type I, S5 = HLD and HLT and
   * S2 = TR00; for Type II and III, S1 = DRQ.
   */
  function TypeStatus(s: Controller): (r: Controller)
    ensures r.cmdType == s.cmdType && r.cmdName == s.cmdName && r.progress == s.progress
    ensures r.pins == s.pins && r.timers == s.timers && r.currentTrack == s.currentTrack
    ensures r.regs.status & 0xD9 == s.regs.status & 0xD9
    ensures SameCommand(r, s) && r.regs == s.regs.(status := r.regs.status)
  {
    s.(regs := s.regs.(status := TypeStatusByte(s)))
  }

  /** The status register with the bits the current type owns refreshed from the lines. */
  function TypeStatusByte(s: Controller): bv8
  {
    var st := s.regs.status;
    if s.cmdType == TypeI then
      var st1 := if s.pins.hld && s.pins.hlt then st | HeadEngagedMask else st & !HeadEngagedMask;
      if !s.pins.notTrack00 then st1 | Track00OrLostDataMask else st1 & !Track00OrLostDataMask
    else if s.cmdType == TypeII || s.cmdType == TypeIII then
      if s.pins.drq then st | IndexOrDrqMask else st & !IndexOrDrqMask
    else st
  }

  /** The command step of the current type; Force Interrupt has none. */
  function CommandStep(s: Controller, dt: nat): (r: Controller)
    requires !s.progress.commandDone
    ensures r.cmdType == s.cmdType && r.cmdName == s.cmdName
    ensures r.pins.indexPulse == s.pins.indexPulse && r.timers.indexPulse == s.timers.indexPulse
    ensures r.progress.commandDone ==> !Busy(r)
    ensures !r.progress.commandDone ==> Busy(r) == Busy(s)
    ensures r.regs.status & 0xFA == s.regs.status & 0xFA
  {
    match s.cmdType
    case TypeI => TypeIStep(s, dt)
    case TypeII => TypeIIStep(s, dt)
    case TypeIII => TypeIIIStep(s, dt)
    case _ => s
  }

  /** An idle controller drops HLD after 3 s (15 revolutions) with the head loaded; a busy one keeps the idle timer at 0. */
  function HldIdle(s: Controller, dt: nat): (r: Controller)
    ensures r.cmdType == s.cmdType && r.cmdName == s.cmdName && r.progress == s.progress && r.regs == s.regs
    ensures r.pins.indexPulse == s.pins.indexPulse && r.timers.indexPulse == s.timers.indexPulse
    ensures SameCommand(r, s) && r.pins.hlt == s.pins.hlt && r.pins.intrq == s.pins.intrq
    ensures r.pins.tg43 == s.pins.tg43 && r.pins.drq == s.pins.drq
  {
    var t := s.timers.hldIdle + dt;
    var counting := !Busy(s) && s.pins.hld;
    var drop := counting && t >= HldIdleResetUs;
    s.(pins := s.pins.(hld := s.pins.hld && !drop),
       timers := s.timers.(hldIdle := if drop || Busy(s) then 0 else if counting then t else s.timers.hldIdle))
  }

  /** The state after the per-cycle line and timer handling, just before the command step. */
  function BeforeStep(s: Controller, dt: nat): (r: Controller)
    ensures r.cmdType == s.cmdType && r.cmdName == s.cmdName && r.progress == s.progress
    ensures Busy(r) == Busy(s) && Sensed(r) && r.currentTrack == s.currentTrack
    ensures r.regs.status & NotReadyMask != 0 <==> !s.pins.ready || !s.pins.notMasterReset
    ensures SameCommand(r, s) && r.regs == s.regs.(status := r.regs.status) && (s.pins.hlt ==> r.pins.hlt)
  {
    TypeStatus(HltTimer(IndexPulse(SenseLines(s), dt), dt))
  }

  /**
   * One clock call with `dt` microseconds elapsed since the last. It keeps
   * the command; once that command is done it no longer moves the head or
   * the byte pointer; and a command it ends is left with BUSY clear.
   */
  function Cycle(s: Controller, dt: nat): (r: Controller)
    ensures r.cmdType == s.cmdType && r.cmdName == s.cmdName
    ensures s.progress.commandDone ==>
              r.progress == s.progress && r.currentTrack == s.currentTrack && r.diskPointer == s.diskPointer
    ensures !s.progress.commandDone && r.progress.commandDone ==> !Busy(r)
  {
    var s1 := BeforeStep(s, dt);
    var s2 := if !s1.progress.commandDone then CommandStep(s1, dt) else s1;
    HldIdle(s2, dt)
  }

  /**
   * `n` clock calls of `dt` microseconds each. They keep the command, and
   * after it is done they leave the head and byte pointer where they were.
   */
  function Run(s: Controller, dt: nat, n: nat): (r: Controller)
    ensures r.cmdType == s.cmdType && r.cmdName == s.cmdName
    ensures s.progress.commandDone ==>
              r.progress == s.progress && r.currentTrack == s.currentTrack && r.diskPointer == s.diskPointer
    decreases n
  {
    if n == 0 then s else Run(Cycle(s, dt), dt, n - 1)
  }

  // ---- Properties ----

  /** The index-pulse width timer is zero whenever the line is low, before and after a pulse step. */
  lemma IndexPulseKeepsWf(s: Controller, dt: nat)
    requires !s.pins.indexPulse ==> s.timers.indexPulse == 0
    ensures var r := IndexPulse(s, dt); !r.pins.indexPulse ==> r.timers.indexPulse == 0
  {
  }

  /** A clock call keeps the controller invariant. */
  lemma CyclePreservesWf(s: Controller, dt: nat)
    requires Wf(s)
    ensures Wf(Cycle(s, dt))
  {
    IndexPulseKeepsWf(SenseLines(s), dt);
  }

  /** Any number of clock calls keeps the controller invariant. */
  lemma {:induction false} RunPreservesWf(s: Controller, dt: nat, n: nat)
    requires Wf(s)
    ensures Wf(Run(s, dt, n))
    decreases n
  {
    if n > 0 {
      CyclePreservesWf(s, dt);
      RunPreservesWf(Cycle(s, dt), dt, n - 1);
    }
  }

  /**
   * Once a Type II or III command is past the E delay and HLT, a whole clock
   * call, idle-timer handling included, leaves TG43 reporting whether the
   * head is beyond cylinder 43.
   */
  lemma Tg43Cycle(s: Controller, dt: nat)
    requires s.cmdType == TypeII || s.cmdType == TypeIII
    requires !s.progress.commandDone && !DelayPending(s) && s.pins.hlt
    ensures Cycle(s, dt).pins.tg43 == (s.currentTrack > 43)
  {
    Tg43PastGates(BeforeStep(s, dt), dt);
  }

  /**
   * The end of a command restarts the HLD idle count, so a loaded head
   * survives a short idle call after it; the not-ready abort keeps the
   * count, so the same call can unload the head.
   */
  lemma CompleteRestartsIdleCount(s: Controller, dt: nat, interrupt: bool)
    requires s.pins.hld && dt < HldIdleResetUs
    ensures HldIdle(Complete(s, interrupt), dt).pins.hld
    ensures s.timers.hldIdle + dt >= HldIdleResetUs ==> !HldIdle(Cancel(s), dt).pins.hld
  {
  }

  /** After a clock call, status bit 7 reports a drive that is not ready or a master reset held. */
  lemma NotReadyBit(s: Controller, dt: nat)
    ensures Cycle(s, dt).regs.status & NotReadyMask != 0 <==> !s.pins.ready || !s.pins.notMasterReset
  {
  }

  /**
   * The index line: a low line rises exactly when the encounter timer
   * reaches 200 ms, a high line falls exactly when the pulse timer reaches
   * 20 us; status bit 1 follows an edge during a Type I command and is not
   * touched otherwise.
   */
  lemma IndexPulseEdges(s: Controller, dt: nat)
    requires !s.pins.indexPulse ==> s.timers.indexPulse == 0
    ensures var r := IndexPulse(s, dt);
      && (!s.pins.indexPulse ==> (r.pins.indexPulse <==> s.timers.indexEncounter + dt >= IndexEncounterUs))
      && (s.pins.indexPulse ==> (!r.pins.indexPulse <==> s.timers.indexPulse + dt >= IndexPulseUs))
      && (s.cmdType == TypeI && r.pins.indexPulse != s.pins.indexPulse ==>
            (r.regs.status & IndexOrDrqMask != 0 <==> r.pins.indexPulse))
      && (s.cmdType != TypeI || r.pins.indexPulse == s.pins.indexPulse ==> r.regs.status == s.regs.status)
  {
  }

  /**
   * HLT is a one-shot: an armed timer raises HLT and disarms exactly when it
   * reaches 45 ms; a disarmed one changes nothing.
   */
  lemma HltOneShot(s: Controller, dt: nat)
    ensures var r := HltTimer(s, dt);
      && (s.hltTimerActive ==> (r.pins.hlt <==> s.pins.hlt || s.timers.hlt + dt >= HeadLoadTimingUs))
      && (s.hltTimerActive ==> (r.hltTimerActive <==> s.timers.hlt + dt < HeadLoadTimingUs))
      && (!s.hltTimerActive ==> r == s)
  {
  }

  /**
   * HLD drops only when the controller is idle and the idle timer reaches
   * 3 s; while busy the idle timer is held at 0.
   */
  lemma HldIdleRule(s: Controller, dt: nat)
    ensures var r := HldIdle(s, dt);
      && (Busy(s) ==> r.timers.hldIdle == 0 && r.pins.hld == s.pins.hld)
      && (!Busy(s) && s.pins.hld ==> (!r.pins.hld <==> s.timers.hldIdle + dt >= HldIdleResetUs))
      && (!s.pins.hld ==> !r.pins.hld)
  {
  }

  /**
   * The per-type status bits: during a Type I command S5 reports HLD and HLT
   * both high and S2 reports TR00; during Type II and III, S1 reports DRQ.
   * Bits 0, 3, 4, 6 and 7 are never touched.
   */
  lemma TypeStatusBits(s: Controller)
    ensures var r := TypeStatus(s);
      && r.regs.status & 0xD9 == s.regs.status & 0xD9
      && (s.cmdType == TypeI ==>
            && (r.regs.status & HeadEngagedMask != 0 <==> s.pins.hld && s.pins.hlt)
            && (r.regs.status & Track00OrLostDataMask != 0 <==> !s.pins.notTrack00)
            && r.regs.status & IndexOrDrqMask == s.regs.status & IndexOrDrqMask)
      && (s.cmdType == TypeII || s.cmdType == TypeIII ==>
            && (r.regs.status & IndexOrDrqMask != 0 <==> s.pins.drq)
            && r.regs.status & 0x24 == s.regs.status & 0x24)
  {
  }

  /**
   * A Force Interrupt written during a command leaves BUSY set for good:
   * there is no Type IV command step, so the command never completes.
   */
  lemma {:induction false} ForceInterruptFreezesBusy(s: Controller, dt: nat, n: nat)
    requires Wf(s) && s.cmdType == TypeIV && Busy(s)
    ensures Busy(Run(s, dt, n)) && Run(s, dt, n).cmdType == TypeIV
    decreases n
  {
    if n > 0 {
      RunPreservesWf(s, dt, 1);
      assert Run(s, dt, 1) == Cycle(s, dt);
      ForceInterruptFreezesBusy(Cycle(s, dt), dt, n - 1);
    }
  }
}

=== FILE: crc.dfy ===
/**
 * CRC-16 helper of the emulator (`computeCRC`): a 256-entry table built
 * from the polynomial 0x1021, then one table lookup per byte, returning
 * the low byte and the high byte of the final register.
 *
 * The table loop of the code never shifts its input, so every entry
 * depends on bit 7 of the index alone. The model keeps that loop as
 * written (`TableEntryAsWritten`) next to the corrected loop
 * (`TableEntry`), and proves the corrected table-driven update equal to
 * the bit-serial CRC-CCITT reference (`SerialByte`).
 */
module Crc {
  import opened Bits

  /** The generator polynomial x^16 + x^12 + x^5 + 1. */
  const Poly: bv16 := 0x1021

  /** Two's-complement truncation of an `int` to 16 bits, as a cast to `unsigned short` does. */
  function ToBv16(v: int): bv16 {
    (v % 0x1_0000) as bv16
  }

  // ---- Bit-serial reference ----

  /** Feed one message bit into the CRC register, most significant bit first. */
  function FeedBit(crc: bv16, bit: bool): bv16 {
    if ((crc & 0x8000) != 0) != bit then (crc << 1) ^ Poly else crc << 1
  }

  /** Feed the top `k` bits of `b` into the register, most significant first. */
  function FeedBits(crc: bv16, b: bv8, k: nat): bv16
    decreases k
  {
    if k == 0 then crc else FeedBits(FeedBit(crc, b & 0x80 != 0), b << 1, k - 1)
  }

  /** The reference CRC of one byte: its eight bits fed in one at a time. */
  function SerialByte(crc: bv16, b: bv8): bv16 {
    FeedBits(crc, b, 8)
  }

  /** The reference CRC of a whole message, bytes reduced to their low eight bits. */
  function SerialCrc(crc: bv16, bytes: seq<int>): bv16
    decreases |bytes|
  {
    if |bytes| == 0 then crc
    else SerialByte(SerialCrc(crc, bytes[..|bytes| - 1]), ToBv8(bytes[|bytes| - 1]))
  }

  // ---- The register shift with feedback ----

  /** All ones when bit 15 of `x` is set, zero otherwise: the feedback tap of the register. */
  function Feedback(x: bv16): bv16 {
    0 - (x >> 15)
  }

  /** One clock of the CRC register with nothing fed in: shift left, add the polynomial on a carry out. */
  function Shift(x: bv16): bv16 {
    (x << 1) ^ (Poly & Feedback(x))
  }

  /** Addition of two register values as polynomials over GF(2). */
  function Xor(x: bv16, y: bv16): bv16 {
    x ^ y
  }

  /** `k` single-place left shifts, one at a time. */
  function ShiftOut(x: bv16, k: nat): bv16
    decreases k
  {
    if k == 0 then x else ShiftOut(x << 1, k - 1)
  }

  /** Bits 15 down to `16 - k` of `x` are all clear. */
  predicate TopClear(x: bv16, k: nat)
    decreases k
  {
    k == 0 || (x & 0x8000 == 0 && TopClear(x << 1, k - 1))
  }

  /** `k` clocks of the CRC register. */
  function ShiftN(x: bv16, k: nat): bv16
    decreases k
  {
    if k == 0 then x else ShiftN(Shift(x), k - 1)
  }

  // ---- The table loop ----

  /** One pass of the inner table loop: test bit 15 of `temp ^ a`, shift, maybe add the polynomial. */
  function ShiftStep(temp: bv16, a: bv16): bv16 {
    if (temp ^ a) & 0x8000 != 0 then (temp << 1) ^ Poly else temp << 1
  }

  /** The inner table loop with `a` shifted along with `temp`, as a table-driven CRC needs. */
  function TableLoop(temp: bv16, a: bv16, j: nat): bv16
    decreases j
  {
    if j == 0 then temp else TableLoop(ShiftStep(temp, a), a << 1, j - 1)
  }

  /**
   * The inner table loop as the code has it: `a` stays `i << 8` for all
   * eight passes, so from a zero register an `a` with bit 15 clear never
   * lets the polynomial in.
   */
  function TableLoopAsWritten(temp: bv16, a: bv16, j: nat): (r: bv16)
    ensures temp == 0 && a & 0x8000 == 0 ==> r == 0
    decreases j
  {
    if j == 0 then temp else TableLoopAsWritten(ShiftStep(temp, a), a, j - 1)
  }

  /** Corrected table entry `i`. */
  function TableEntry(i: bv8): bv16 {
    TableLoop(0, (i as bv16) << 8, 8)
  }

  /** Table entry `i` as the code builds it: zero whenever bit 7 of `i` is clear. */
  function TableEntryAsWritten(i: bv8): (r: bv16)
    ensures i & 0x80 == 0 ==> r == 0
  {
    assert i & 0x80 == 0 ==> ((i as bv16) << 8) & 0x8000 == 0;
    TableLoopAsWritten(0, (i as bv16) << 8, 8)
  }

  /** One byte of the table-driven loop: shift the register a byte and add the entry the top byte selects. */
  function Update(crc: bv16, b: bv8): bv16 {
    Xor(crc << 8, TableEntry(((crc >> 8) as bv8) ^ b))
  }

  /** One byte of the table-driven loop with the table the code builds. */
  function UpdateAsWritten(crc: bv16, b: bv8): bv16 {
    (crc << 8) ^ TableEntryAsWritten(((crc >> 8) as bv8) ^ b)
  }

  /** The register the code ends with: the initial value cast to 16 bits, then one update per byte. */
  function RegisterAsWritten(initial: int, bytes: seq<int>): bv16
    decreases |bytes|
  {
    if |bytes| == 0 then ToBv16(initial)
    else UpdateAsWritten(RegisterAsWritten(initial, bytes[..|bytes| - 1]), ToBv8(bytes[|bytes| - 1]))
  }

  /** The result pair of the code: the register's low byte, then its high byte. */
  function ResultBytes(crc: bv16): (r: (int, int))
    ensures 0 <= r.0 < 256 && 0 <= r.1 < 256
    ensures r.0 + 256 * r.1 == crc as int
  {
    SplitBytes(crc);
    ((crc & 0xFF) as int, ((crc >> 8) & 0xFF) as int)
  }

  /** The two result bytes of the code as written. */
  function ComputeCrcAsWritten(initial: int, bytes: seq<int>): (r: (int, int))
    ensures 0 <= r.0 < 256 && 0 <= r.1 < 256
    ensures r.0 + 256 * r.1 == RegisterAsWritten(initial, bytes) as int
  {
    ResultBytes(RegisterAsWritten(initial, bytes))
  }

  /**
   * The corrected CRC computation: the register starts at the initial
   * value cast to 16 bits and takes one table update per byte; the
   * result is the bit-serial CRC-CCITT of the message, low byte first.
   */
  method ComputeCrc(initial: int, bytes: seq<int>) returns (lo: int, hi: int)
    ensures 0 <= lo < 256 && 0 <= hi < 256
    ensures lo + 256 * hi == SerialCrc(ToBv16(initial), bytes) as int
  {
    var crc := ToBv16(initial);
    var i := 0;
    while i < |bytes|
      invariant 0 <= i <= |bytes|
      invariant crc == SerialCrc(ToBv16(initial), bytes[..i])
    {
      SerialCrcSnoc(ToBv16(initial), bytes, i);
      TableDrivenIsSerial(crc, ToBv8(bytes[i]));
      crc := Update(crc, ToBv8(bytes[i]));
      i := i + 1;
    }
    assert bytes[..i] == bytes;
    var r := ResultBytes(crc);
    lo, hi := r.0, r.1;
  }

  /** The reference CRC of one more byte of the message. */
  lemma SerialCrcSnoc(crc: bv16, bytes: seq<int>, i: nat)
    requires i < |bytes|
    ensures SerialCrc(crc, bytes[..i + 1]) == SerialByte(SerialCrc(crc, bytes[..i]), ToBv8(bytes[i]))
  {
    assert bytes[..i + 1][..i] == bytes[..i];
  }

  // ---- Properties ----

  /** The feedback tap is all ones exactly when bit 15 is set. */
  lemma FeedbackCases(x: bv16)
    ensures x & 0x8000 != 0 ==> Feedback(x) == 0xFFFF
    ensures x & 0x8000 == 0 ==> Feedback(x) == 0
  {
  }

  /** The low and high result bytes recombine into the register. */
  lemma SplitBytes(crc: bv16)
    ensures (crc & 0xFF) as int + 256 * (((crc >> 8) & 0xFF) as int) == crc as int
  {
  }

  /** A register clock distributes over exclusive-or: the CRC is linear. */
  lemma ShiftLinear(x: bv16, y: bv16)
    ensures Shift(Xor(x, y)) == Xor(Shift(x), Shift(y))
  {
    ShiftLinearBits(x, y);
  }

  /** `ShiftLinear` on the raw operators. */
  lemma ShiftLinearBits(x: bv16, y: bv16)
    ensures Shift(x ^ y) == Shift(x) ^ Shift(y)
  {
  }

  /** Any number of clocks distributes over exclusive-or. */
  lemma {:induction false} ShiftNLinear(x: bv16, y: bv16, k: nat)
    ensures ShiftN(Xor(x, y), k) == Xor(ShiftN(x, k), ShiftN(y, k))
    decreases k
  {
    if k > 0 {
      ShiftLinear(x, y);
      ShiftNLinear(Shift(x), Shift(y), k - 1);
    }
  }

  /** A register whose top `k` bits are clear takes `k` clocks as plain shifts. */
  lemma {:induction false} ShiftNLow(x: bv16, k: nat)
    requires TopClear(x, k)
    ensures ShiftN(x, k) == ShiftOut(x, k)
    decreases k
  {
    if k > 0 {
      FeedbackCases(x);
      ShiftNLow(x << 1, k - 1);
    }
  }

  /** A value below 256 has its top eight bits clear. */
  lemma LowByteTopClear(x: bv16)
    requires x & 0xFF00 == 0
    ensures TopClear(x, 8)
  {
    assert TopClear(x << 8, 0);
    assert TopClear(x << 7, 1) by { assert (x << 7) << 1 == x << 8; }
    assert TopClear(x << 6, 2) by { assert (x << 6) << 1 == x << 7; }
    assert TopClear(x << 5, 3) by { assert (x << 5) << 1 == x << 6; }
    assert TopClear(x << 4, 4) by { assert (x << 4) << 1 == x << 5; }
    assert TopClear(x << 3, 5) by { assert (x << 3) << 1 == x << 4; }
    assert TopClear(x << 2, 6) by { assert (x << 2) << 1 == x << 3; }
    assert TopClear(x << 1, 7) by { assert (x << 1) << 1 == x << 2; }
  }

  /** Eight single-place shifts are one eight-place shift. */
  lemma ShiftOutEight(x: bv16)
    ensures ShiftOut(x, 8) == x << 8
  {
    assert ShiftOut(x << 7, 1) == x << 8 by { assert (x << 7) << 1 == x << 8; }
    assert ShiftOut(x << 6, 2) == x << 8 by { assert (x << 6) << 1 == x << 7; }
    assert ShiftOut(x << 5, 3) == x << 8 by { assert (x << 5) << 1 == x << 6; }
    assert ShiftOut(x << 4, 4) == x << 8 by { assert (x << 4) << 1 == x << 5; }
    assert ShiftOut(x << 3, 5) == x << 8 by { assert (x << 3) << 1 == x << 4; }
    assert ShiftOut(x << 2, 6) == x << 8 by { assert (x << 2) << 1 == x << 3; }
    assert ShiftOut(x << 1, 7) == x << 8 by { assert (x << 1) << 1 == x << 2; }
  }

  /** One pass of the inner loop, added to the shifted `a`, is a register clock of `temp ^ a`. */
  lemma ShiftStepIsShift(temp: bv16, a: bv16)
    ensures Xor(ShiftStep(temp, a), a << 1) == Shift(Xor(temp, a))
  {
    FeedbackCases(temp ^ a);
    assert (temp ^ a) << 1 == (temp << 1) ^ (a << 1);
  }

  /** The corrected table loop clocks `temp ^ a`, up to `a` shifted out by `j` places. */
  lemma {:induction false} TableLoopIsShift(temp: bv16, a: bv16, j: nat)
    ensures Xor(TableLoop(temp, a, j), ShiftOut(a, j)) == ShiftN(Xor(temp, a), j)
    decreases j
  {
    if j > 0 {
      ShiftStepIsShift(temp, a);
      TableLoopIsShift(ShiftStep(temp, a), a << 1, j - 1);
    }
  }

  /** Feeding `k` bits serially is the corrected table loop with the byte in the top half. */
  lemma {:induction false} FeedBitsIsTableLoop(crc: bv16, b: bv8, k: nat)
    ensures FeedBits(crc, b, k) == TableLoop(crc, (b as bv16) << 8, k)
    decreases k
  {
    if k > 0 {
      assert FeedBit(crc, b & 0x80 != 0) == ShiftStep(crc, (b as bv16) << 8);
      assert ((b << 1) as bv16) << 8 == ((b as bv16) << 8) << 1;
      FeedBitsIsTableLoop(FeedBit(crc, b & 0x80 != 0), b << 1, k - 1);
    }
  }

  /** The corrected table entry `i` is the serial CRC of byte `i` from a zero register. */
  lemma TableEntryIsSerial(i: bv8)
    ensures TableEntry(i) == SerialByte(0, i)
  {
    FeedBitsIsTableLoop(0, i, 8);
  }

  /** Splitting the register fed with byte `b` into the table index part and the low byte. */
  lemma SplitFeed(crc: bv16, b: bv8)
    ensures Xor(crc, (b as bv16) << 8) == Xor(((((crc >> 8) as bv8) ^ b) as bv16) << 8, crc & 0xFF)
  {
  }

  /** Bytes placed in the top half shift out in eight places; the low byte shifts to where the register's does. */
  lemma ByteShifts(crc: bv16, i: bv8)
    ensures ((i as bv16) << 8) << 8 == 0 && Xor(0, (i as bv16) << 8) == (i as bv16) << 8
    ensures (crc & 0xFF) & 0xFF00 == 0 && (crc & 0xFF) << 8 == crc << 8
  {
  }

  /** The table-driven byte update equals feeding the byte bit by bit, for every register and byte. */
  lemma TableDrivenIsSerial(crc: bv16, b: bv8)
    ensures Update(crc, b) == SerialByte(crc, b)
  {
    var B := (b as bv16) << 8;
    var hi := ((((crc >> 8) as bv8) ^ b) as bv16) << 8;
    var lo := crc & 0xFF;
    SplitFeed(crc, b);
    ByteShifts(crc, b);
    ByteShifts(crc, ((crc >> 8) as bv8) ^ b);
    FeedBitsIsTableLoop(crc, b, 8);
    TableLoopIsShift(crc, B, 8);
    TableLoopIsShift(0, hi, 8);
    ShiftOutEight(B);
    ShiftOutEight(hi);
    ShiftNLinear(hi, lo, 8);
    LowByteTopClear(lo);
    ShiftNLow(lo, 8);
    ShiftOutEight(lo);
    XorFinish(TableLoop(crc, B, 8), TableLoop(0, hi, 8), ShiftN(hi, 8), crc << 8);
  }

  /** The closing exclusive-or step of `TableDrivenIsSerial`. */
  lemma XorFinish(s: bv16, e: bv16, sh: bv16, sl: bv16)
    ensures Xor(s, 0) == Xor(sh, sl) && Xor(e, 0) == sh ==> Xor(sl, e) == s
  {
  }

  /** The table the code builds ignores bits 0 to 6 of the index. */
  lemma AsWrittenTableIgnoresLowBits(i: bv8)
    ensures TableEntryAsWritten(i) == TableEntryAsWritten(i & 0x80)
  {
    assert ((i as bv16) << 8) & 0x8000 == (((i & 0x80) as bv16) << 8) & 0x8000;
    AsWrittenLoopSeesBit15(0, (i as bv16) << 8, ((i & 0x80) as bv16) << 8, 8);
  }

  /** The loop as written looks at bit 15 of `a` alone: two values agreeing there give the same result. */
  lemma {:induction false} AsWrittenLoopSeesBit15(temp: bv16, a: bv16, b: bv16, j: nat)
    requires a & 0x8000 == b & 0x8000
    ensures TableLoopAsWritten(temp, a, j) == TableLoopAsWritten(temp, b, j)
    decreases j
  {
    if j > 0 {
      assert (temp ^ a) & 0x8000 == (temp ^ b) & 0x8000;
      AsWrittenLoopSeesBit15(ShiftStep(temp, a), a, b, j - 1);
    }
  }

  /**
   * The code as written: the byte 0x01 from a zero register gives the
   * CRC 0x0000, where CRC-CCITT gives 0x1021.
   */
  lemma AsWrittenCounterexample()
    ensures TableEntryAsWritten(1) == 0 && SerialByte(0, 1) == 0x1021
    ensures ComputeCrcAsWritten(0, [1]) == (0, 0)
    ensures SerialCrc(0, [1]) == 0x1021
  {
    assert [1][..0] == [];
  }
}

=== FILE: decoder.dfy ===
/**
 * Classification of a command byte into one of the eleven commands, in the
 * order the dispatcher tests the bits, together with the datasheet's opcode
 * table and byte layouts as an independent reference.
 */
module Decoder {
  import opened Bits
  import opened Fdc

  /**
   * The command a byte selects. High nibble 1101 is Force Interrupt; bit 7
   * clear is Type I (nibble 0000 Restore, 0001 Seek, high three bits 001,
   * 010, 011 Step, Step-In, Step-Out); high three bits 100 and 101 are Type
   * II; what remains (nibbles 1100, 1110, 1111) is Type III. The branches the
   * source reports as "something went wrong" are proved unreachable here.
   */
  function Decode(b: bv8): (c: CommandName)
    ensures Matches(b, c)
  {
    var nibble := b >> 4;
    var high3 := b >> 5;
    if nibble == 13 then ForceInterrupt
    else if b >> 7 == 0 then
      if nibble < 2 then
        if nibble & 1 == 0 then Restore else Seek
      else if high3 == 1 then Step
      else if high3 == 2 then StepIn
      else if high3 == 3 then StepOut
      else assert false; Restore
    else if high3 < 6 then
      if high3 == 4 then ReadSector
      else if high3 == 5 then WriteSector
      else assert false; ReadSector
    else if nibble == 12 then ReadAddress
    else if nibble == 14 then ReadTrack
    else if nibble == 15 then WriteTrack
    else assert false; ReadAddress
  }

  /** Bits of the opcode field of each command (the rest are its flags). */
  function OpcodeMask(c: CommandName): bv8
  {
    match c
    case Step | StepIn | StepOut | ReadSector | WriteSector => 0xE0
    case _ => 0xF0
  }

  /** The datasheet's opcode of each command. */
  function Opcode(c: CommandName): bv8
  {
    match c
    case NoName => 0xFF
    case Restore => 0x00
    case Seek => 0x10
    case Step => 0x20
    case StepIn => 0x40
    case StepOut => 0x60
    case ReadSector => 0x80
    case WriteSector => 0xA0
    case ReadAddress => 0xC0
    case ForceInterrupt => 0xD0
    case ReadTrack => 0xE0
    case WriteTrack => 0xF0
  }

  /** Byte `b` carries the opcode of command `c`. */
  predicate Matches(b: bv8, c: CommandName)
  {
    c != NoName && b & OpcodeMask(c) == Opcode(c)
  }

  /** Every byte names exactly one command: the one whose opcode it carries. */
  lemma DecodeIsOpcodeTable(b: bv8, c: CommandName)
    ensures Decode(b) == c <==> Matches(b, c)
  {
    if Matches(b, c) {
      OpcodesDisjoint(b, c, Decode(b));
    }
  }

  /** No byte carries two opcodes. */
  lemma OpcodesDisjoint(b: bv8, c: CommandName, d: CommandName)
    requires Matches(b, c) && Matches(b, d)
    ensures c == d
  {
  }

  /** The type of a byte's command, stated on its bits alone. */
  lemma TypeOfDecode(b: bv8)
    ensures TypeOf(Decode(b)) == TypeIV <==> b >> 4 == 13
    ensures TypeOf(Decode(b)) == TypeI <==> b >> 7 == 0
    ensures TypeOf(Decode(b)) == TypeII <==> b >> 5 == 4 || b >> 5 == 5
    ensures TypeOf(Decode(b)) == TypeIII <==> b >> 4 == 12 || b >> 4 == 14 || b >> 4 == 15
    ensures TypeOf(Decode(b)) != NoType
  {
  }

  // ---- Command bytes as the datasheet lays them out ----

  /** A flag bit at position `k`. */
  function Flag(f: bool, k: nat): bv8
    requires k < 8
  {
    if f then BitMask(k) else 0
  }

  /** Type I: opcode, u (bit 4, Step family only), h (bit 3), V (bit 2), r1 r0. */
  function EncodeTypeI(c: CommandName, rate: bv8, verify: bool, headLoad: bool, trackUpdate: bool): bv8
    requires TypeOf(c) == TypeI && rate < 4
  {
    Opcode(c) | Flag(trackUpdate && c != Restore && c != Seek, 4) | Flag(headLoad, 3) | Flag(verify, 2) | rate
  }

  /** Type II: opcode, m (bit 4), L (bit 3), E (bit 2), U (bit 1), a0 (bit 0, Write Sector only). */
  function EncodeTypeII(c: CommandName, multiple: bool, swapLength: bool, delay: bool, updateSso: bool, mark: bool): bv8
    requires TypeOf(c) == TypeII
  {
    Opcode(c) | Flag(multiple, 4) | Flag(swapLength, 3) | Flag(delay, 2) | Flag(updateSso, 1)
      | Flag(mark && c == WriteSector, 0)
  }

  /** Type III: opcode, E (bit 2), U (bit 1). */
  function EncodeTypeIII(c: CommandName, delay: bool, updateSso: bool): bv8
    requires TypeOf(c) == TypeIII
  {
    Opcode(c) | Flag(delay, 2) | Flag(updateSso, 1)
  }

  /** Type IV: opcode 1101 and the interrupt conditions I0-I3. */
  function EncodeForceInterrupt(i: InterruptFlags): bv8
  {
    Opcode(ForceInterrupt) | Flag(i.notReadyToReady, 0) | Flag(i.readyToNotReady, 1)
      | Flag(i.indexPulse, 2) | Flag(i.immediate, 3)
  }

  /** The fields of a Type I command byte decode to what was encoded. */
  lemma TypeIFields(c: CommandName, rate: bv8, verify: bool, headLoad: bool, trackUpdate: bool)
    requires TypeOf(c) == TypeI && rate < 4
    ensures var b := EncodeTypeI(c, rate, verify, headLoad, trackUpdate);
      && Decode(b) == c && b & 3 == rate && Bit(b, 2) == verify && Bit(b, 3) == headLoad
      && (c == Step || c == StepIn || c == StepOut ==> Bit(b, 4) == trackUpdate)
  {
    DecodeIsOpcodeTable(EncodeTypeI(c, rate, verify, headLoad, trackUpdate), c);
  }

  /** The fields of a Type II command byte decode to what was encoded. */
  lemma TypeIIFields(c: CommandName, multiple: bool, swapLength: bool, delay: bool, updateSso: bool, mark: bool)
    requires TypeOf(c) == TypeII
    ensures var b := EncodeTypeII(c, multiple, swapLength, delay, updateSso, mark);
      && Decode(b) == c && Bit(b, 4) == multiple && Bit(b, 3) == swapLength
      && Bit(b, 2) == delay && Bit(b, 1) == updateSso
      && (c == WriteSector ==> Bit(b, 0) == mark)
  {
    DecodeIsOpcodeTable(EncodeTypeII(c, multiple, swapLength, delay, updateSso, mark), c);
  }

  /** The fields of a Type III command byte decode to what was encoded. */
  lemma TypeIIIFields(c: CommandName, delay: bool, updateSso: bool)
    requires TypeOf(c) == TypeIII
    ensures var b := EncodeTypeIII(c, delay, updateSso);
      && Decode(b) == c && Bit(b, 2) == delay && Bit(b, 1) == updateSso
  {
    DecodeIsOpcodeTable(EncodeTypeIII(c, delay, updateSso), c);
  }

  /** The condition bits of a Force Interrupt byte decode to what was encoded. */
  lemma ForceInterruptFields(i: InterruptFlags)
    ensures var b := EncodeForceInterrupt(i);
      && Decode(b) == ForceInterrupt
      && Bit(b, 0) == i.notReadyToReady && Bit(b, 1) == i.readyToNotReady
      && Bit(b, 2) == i.indexPulse && Bit(b, 3) == i.immediate
      && (b & 0x0F == 0 <==> i == InterruptFlags(false, false, false, false))
  {
    DecodeIsOpcodeTable(EncodeForceInterrupt(i), ForceInterrupt);
  }
}

=== FILE: fdc.dfy ===
/**
 * State of the emulated WD1797 floppy-disk controller: the visible registers,
 * the drive and host pins, the flags decoded from the current command, the
 * progress flags of the command state machines and the microsecond timers,
 * held in one immutable record that the entry points map to a new record.
 */
module Fdc {
  import opened Bits

  // ---- Timing constants, in microseconds (1 MHz controller clock, 300 RPM drive) ----

  /** The index hole passes the sensor once per revolution. */
  const IndexEncounterUs: nat := 200000
  /** Width of one index pulse. */
  const IndexPulseUs: nat := 20
  /** An idle controller drops HLD after 15 revolutions. */
  const HldIdleResetUs: nat := 15 * IndexEncounterUs
  /** Head-load timing: HLT rises this long after HLD. */
  const HeadLoadTimingUs: nat := 45 * 1000
  /** Head settling before a Type I verify. */
  const VerifySettlingUs: nat := 30 * 1000
  /** The E delay of Type II and III commands (30 ms at 1 MHz). */
  const EDelayUs: nat := 30 * 1000
  /** Byte-assembly time, 26.67 us, kept exact in hundredths of a microsecond. */
  const AssembleByteCentiUs: nat := 2667

  // ---- Status register bits ----

  /** S0: a command is in progress. */
  const BusyMask: bv8 := 0x01
  /** S1: index pulse (Type I) or DRQ (Type II and III). */
  const IndexOrDrqMask: bv8 := 0x02
  /** S2: track 00 (Type I) or lost data (Type II and III). */
  const Track00OrLostDataMask: bv8 := 0x04
  /** S5: head loaded and engaged (Type I). */
  const HeadEngagedMask: bv8 := 0x20
  /** S7: drive not ready or master reset held. */
  const NotReadyMask: bv8 := 0x80

  // ---- Commands ----

  /** Head step direction as driven on the DIRC pin. */
  datatype Direction = Out | In

  datatype CommandType = NoType | TypeI | TypeII | TypeIII | TypeIV

  /**
   * The eleven commands of the chip; `NoName` is the name after a reset,
   * before any Type I-III command has been accepted.
   */
  datatype CommandName =
    | NoName
    | Restore | Seek | Step | StepIn | StepOut
    | ReadSector | WriteSector
    | ReadAddress | ReadTrack | WriteTrack
    | ForceInterrupt

  /** The type each command belongs to. */
  function TypeOf(c: CommandName): CommandType
  {
    match c
    case NoName => NoType
    case Restore | Seek | Step | StepIn | StepOut => TypeI
    case ReadSector | WriteSector => TypeII
    case ReadAddress | ReadTrack | WriteTrack => TypeIII
    case ForceInterrupt => TypeIV
  }

  // ---- Medium ----

  datatype Geometry = Geometry(cylinders: int, sectorsPerTrack: int, sectorLength: int)

  /** A raw sector dump: side 0 cylinders in order, then side 1. */
  datatype Disk = Disk(geometry: Geometry, image: seq<bv8>)

  predicate ValidGeometry(g: Geometry)
  {
    g.cylinders >= 1 && g.sectorsPerTrack >= 1 && g.sectorLength >= 1
  }

  // ---- Controller record ----

  datatype Registers = Registers(data: Byte, track: Byte, sector: Byte, command: bv8, status: bv8)

  datatype Pins = Pins(
    indexPulse: bool,
    ready: bool,
    tg43: bool,
    hld: bool,
    hlt: bool,
    notTrack00: bool,
    direction: Direction,
    sso: bool,
    drq: bool,
    intrq: bool,
    notMasterReset: bool)

  /** Flags of a Type I command; `stepRate` is in milliseconds. */
  datatype TypeIFlags = TypeIFlags(stepRate: nat, verify: bool, headLoad: bool, trackUpdate: bool)

  /** Flags of a Type II or III command. */
  datatype TypeIIFlags = TypeIIFlags(
    dataAddressMark: bool,
    updateSso: bool,
    delay15ms: bool,
    swapSectorLength: bool,
    multipleRecords: bool)

  /** Interrupt conditions armed by a Force Interrupt (I0-I3). */
  datatype InterruptFlags = InterruptFlags(
    notReadyToReady: bool,
    readyToNotReady: bool,
    indexPulse: bool,
    immediate: bool)

  datatype Progress = Progress(
    actionDone: bool,
    commandDone: bool,
    headSettlingDone: bool,
    eDelayDone: bool,
    startByteSet: bool,
    terminate: bool)

  /** Accumulating timers, in microseconds. */
  datatype Timers = Timers(
    indexEncounter: nat,
    indexPulse: nat,
    step: nat,
    verifySettling: nat,
    eDelay: nat,
    assembleByte: nat,
    hldIdle: nat,
    hlt: nat)

  datatype Controller = Controller(
    regs: Registers,
    pins: Pins,
    cmdType: CommandType,
    cmdName: CommandName,
    typeI: TypeIFlags,
    typeII: TypeIIFlags,
    interrupts: InterruptFlags,
    progress: Progress,
    timers: Timers,
    delayedHld: bool,
    hltTimerActive: bool,
    currentTrack: int,
    diskPointer: int,
    rwStartByte: int,
    disk: Disk)

  /** Status bit 0. */
  predicate Busy(s: Controller)
  {
    s.regs.status & BusyMask != 0
  }

  /** The head is on a cylinder of the mounted disk. */
  predicate TrackInRange(s: Controller)
  {
    0 <= s.currentTrack < s.disk.geometry.cylinders
  }

  /**
   * What every reachable state satisfies: BUSY is never set once the command
   * is done; while a Type I-III command is current, BUSY is set exactly until
   * it is done and the stored name belongs to that type; the index-pulse
   * width timer only runs while the pulse is high.
   */
  predicate Wf(s: Controller)
  {
    && (Busy(s) ==> !s.progress.commandDone)
    && (s.cmdType == TypeI || s.cmdType == TypeII || s.cmdType == TypeIII ==>
          Busy(s) == !s.progress.commandDone && TypeOf(s.cmdName) == s.cmdType)
    && (!s.pins.indexPulse ==> s.timers.indexPulse == 0)
  }

  /** Controller after a reset, with `disk` in the drive; the drive is ready at once. */
  function Reset(disk: Disk): (s: Controller)
    ensures Wf(s)
    ensures !Busy(s) && s.pins.ready && !s.pins.intrq && !s.pins.drq
    ensures s.currentTrack == 0 && s.cmdType == NoType && s.disk == disk
  {
    Controller(
      Registers(0, 0, 0, 0, 0),
      Pins(false, true, false, false, false, false, Out, false, false, false, true),
      NoType,
      NoName,
      TypeIFlags(0, false, false, false),
      TypeIIFlags(false, false, false, false, false),
      InterruptFlags(false, false, false, false),
      Progress(false, false, false, false, false, false),
      Timers(0, 0, 0, 0, 0, 0, 0, 0),
      false,
      false,
      0,
      0,
      0,
      disk)
  }

  /** An HLD rising edge: HLT drops and its one-shot timer is re-armed. */
  function LoadHead(s: Controller): (r: Controller)
    ensures r.pins.hld && !r.pins.hlt && r.hltTimerActive && r.timers.hlt == 0 && r.timers.hldIdle == 0
    ensures r.pins == s.pins.(hld := true, hlt := false)
    ensures r.timers.indexEncounter == s.timers.indexEncounter && r.timers.indexPulse == s.timers.indexPulse
    ensures r.timers.step == s.timers.step && r.timers.verifySettling == s.timers.verifySettling
    ensures r.timers.eDelay == s.timers.eDelay && r.timers.assembleByte == s.timers.assembleByte
    ensures r.regs == s.regs && r.progress == s.progress && r.typeI == s.typeI && r.typeII == s.typeII
    ensures r.cmdType == s.cmdType && r.cmdName == s.cmdName && r.delayedHld == s.delayedHld
    ensures r.currentTrack == s.currentTrack && r.diskPointer == s.diskPointer && r.disk == s.disk
  {
    s.(pins := s.pins.(hld := true, hlt := false),
       hltTimerActive := true,
       timers := s.timers.(hlt := 0, hldIdle := 0))
  }

  /** `Complete` applied only when `done` holds; otherwise the state is left alone. */
  function CompleteIf(s: Controller, done: bool, interrupt: bool): (r: Controller)
    ensures !done ==> r == s
    ensures done ==> r.progress.commandDone && !Busy(r) && r.pins.intrq == (interrupt || s.pins.intrq)
    ensures r.regs.status & !BusyMask == s.regs.status & !BusyMask
    ensures r.cmdType == s.cmdType && r.cmdName == s.cmdName && r.currentTrack == s.currentTrack
    ensures r.pins.indexPulse == s.pins.indexPulse && r.timers.indexPulse == s.timers.indexPulse
    ensures r.pins.tg43 == s.pins.tg43 && r.pins.drq == s.pins.drq && r.pins.hlt == s.pins.hlt
    ensures r.regs.data == s.regs.data && r.diskPointer == s.diskPointer
    ensures done ==> r.timers.hldIdle == 0 && r.timers == s.timers.(hldIdle := 0)
    ensures r.pins.hld == s.pins.hld && r.regs == s.regs.(status := r.regs.status)
  {
    if done then Complete(s, interrupt) else s
  }

  /**
   * The not-ready abort of a Type II or III setup: the command is done with
   * BUSY cleared and INTRQ raised, but unlike `Complete` the HLD idle timer
   * keeps its count, so no timer changes.
   */
  function Cancel(s: Controller): (r: Controller)
    ensures r.progress.commandDone && !Busy(r) && r.pins.intrq
    ensures r.timers == s.timers
    ensures r == Complete(s, true).(timers := s.timers)
  {
    s.(progress := s.progress.(commandDone := true),
       regs := s.regs.(status := s.regs.status & !BusyMask),
       pins := s.pins.(intrq := true))
  }

  /** End of a command: BUSY cleared, HLD idle timer restarted, INTRQ raised when `interrupt`. */
  function Complete(s: Controller, interrupt: bool): (r: Controller)
    ensures r.progress.commandDone && !Busy(r) && r.pins.intrq == (interrupt || s.pins.intrq)
    ensures r.regs.status & !BusyMask == s.regs.status & !BusyMask
    ensures r.cmdType == s.cmdType && r.cmdName == s.cmdName && r.currentTrack == s.currentTrack
    ensures r.pins.indexPulse == s.pins.indexPulse && r.timers.indexPulse == s.timers.indexPulse
    ensures r.pins.tg43 == s.pins.tg43 && r.pins.drq == s.pins.drq && r.pins.hlt == s.pins.hlt
    ensures r.timers == s.timers.(hldIdle := 0) && r.pins.hld == s.pins.hld
    ensures r.regs == s.regs.(status := r.regs.status)
  {
    s.(progress := s.progress.(commandDone := true),
       regs := s.regs.(status := s.regs.status & !BusyMask),
       timers := s.timers.(hldIdle := 0),
       pins := s.pins.(intrq := interrupt || s.pins.intrq))
  }
}

=== FILE: host.dfy ===
/**
 * Commands driven from the host side: bytes written to the ports start a
 * command, and the clock calls that follow carry it to its end.
 */
module Host {
  import opened Bits
  import opened Fdc
  import opened Decoder
  import opened Setup
  import opened Ports
  import opened Stepping
  import opened Clock
  import opened Runs

  /**
   * From the ports: a target written to the data port, then a Seek command
   * byte written to an idle controller whose head is on a cylinder the track
   * register can hold, starts a Seek that keeps the target; with clock calls
   * one step-rate interval apart the head and the track register reach the
   * target, and the action ends, after as many calls as the head is away
   * from it, plus one.
   */
  lemma SeekFromPorts(s: Controller, dt: nat, target: nat, rate: bv8, verify: bool, headLoad: bool)
    requires !Busy(s) && rate < 4 && 0 <= s.currentTrack < 256 && dt >= StepRateMs(rate) * 1000
    ensures var c := Write(Write(s, DataPort, target), CommandPort, EncodeTypeI(Seek, rate, verify, headLoad, false) as int);
      && Seeking(c, dt) && c.regs.data == target % 256
      && var r := Run(c, dt, SeekDistance(c) + 1);
      && r.progress.actionDone && !r.progress.commandDone
      && r.regs.track == target % 256 && r.currentTrack == target % 256
  {
    var s1 := Write(s, DataPort, target);
    TypeICommandByte(s1, Seek, rate, verify, headLoad, false);
    var c := Write(s1, CommandPort, EncodeTypeI(Seek, rate, verify, headLoad, false) as int);
    assert Seeking(c, dt);
    SeekRun(c, dt, SeekDistance(c));
  }
}

=== FILE: ports.dfy ===
/**
 * The host's view of the controller: six I/O ports, 0xB0-0xB5, read and
 * written synchronously between clock ticks.
 */
module Ports {
  import opened Bits
  import opened Fdc
  import opened Decoder
  import opened Setup

  /** Read: status register; write: command register. */
  const CommandPort: nat := 0xB0
  const TrackPort: nat := 0xB1
  const SectorPort: nat := 0xB2
  const DataPort: nat := 0xB3
  /** Write-only control latch (side select and density are wired outside the chip). */
  const ControlLatchPort: nat := 0xB4
  /** Read-only controller status port, unimplemented. */
  const ControllerStatusPort: nat := 0xB5

  /** The ports backed by a register. */
  predicate RegisterPort(port: nat)
  {
    CommandPort <= port <= DataPort
  }

  datatype ReadResult = ReadResult(value: Byte, next: Controller)

  /**
   * A port read. Only a read of the data register during a Type II command
   * has a side effect: it drops DRQ. Reading the status register leaves
   * INTRQ as it is. Ports without a register read as 0.
   */
  function Read(s: Controller, port: nat): (r: ReadResult)
    ensures r.next == s || (port == DataPort && s.cmdType == TypeII && r.next == s.(pins := s.pins.(drq := false)))
    ensures r.next.pins.drq <==> s.pins.drq && !(port == DataPort && s.cmdType == TypeII)
    ensures r.next.pins.intrq == s.pins.intrq
    ensures port == CommandPort ==> r.value == s.regs.status as int
    ensures port == TrackPort ==> r.value == s.regs.track
    ensures port == SectorPort ==> r.value == s.regs.sector
    ensures port == DataPort ==> r.value == s.regs.data
    ensures port == ControlLatchPort || port == ControllerStatusPort ==> r == ReadResult(0, s)
    ensures !RegisterPort(port) ==> r.value == 0
  {
    match port
    case 0xB0 => ReadResult(s.regs.status as int, s)
    case 0xB1 => ReadResult(s.regs.track, s)
    case 0xB2 => ReadResult(s.regs.sector, s)
    case 0xB3 =>
      var next := if s.cmdType == TypeII && s.pins.drq then s.(pins := s.pins.(drq := false)) else s;
      ReadResult(s.regs.data, next)
    case _ => ReadResult(0, s)
  }

  /**
   * A port write of an `unsigned int`. The track, sector and data registers
   * take it modulo 256 whatever the controller is doing; the command register
   * takes it and the command is dispatched; every other port ignores it.
   */
  function Write(s: Controller, port: nat, value: nat): (r: Controller)
    ensures port == TrackPort ==> r == s.(regs := s.regs.(track := ToByte(value)))
    ensures port == SectorPort ==> r == s.(regs := s.regs.(sector := ToByte(value)))
    ensures port == DataPort ==> r == s.(regs := s.regs.(data := ToByte(value)))
    ensures port == CommandPort ==> r.regs.command == ToBv8(value)
    ensures port == CommandPort && Busy(s) && Decode(ToBv8(value)) != ForceInterrupt ==>
              r == s.(regs := s.regs.(command := ToBv8(value)))
    ensures port == ControlLatchPort || port == ControllerStatusPort ==> r == s
    ensures !RegisterPort(port) ==> r == s
  {
    match port
    case 0xB0 => Dispatch(s.(regs := s.regs.(command := ToBv8(value))))
    case 0xB1 => s.(regs := s.regs.(track := ToByte(value)))
    case 0xB2 => s.(regs := s.regs.(sector := ToByte(value)))
    case 0xB3 => s.(regs := s.regs.(data := ToByte(value)))
    case _ => s
  }

  /** A value written to the track, sector or data port reads back as the value modulo 256. */
  lemma WriteThenRead(s: Controller, port: nat, value: nat)
    requires port == TrackPort || port == SectorPort || port == DataPort
    ensures Read(Write(s, port, value), port).value == value % 256
  {
  }

  /** The host sees BUSY as bit 0 of the value the status port returns. */
  lemma StatusReadShowsBusy(s: Controller)
    ensures Read(s, CommandPort).value % 2 == 1 <==> Busy(s)
  {
    var st := s.regs.status;
    assert st & BusyMask == (st as int % 2) as bv8;
  }

  /** Reading a port twice gives the same value, and the second read changes nothing. */
  lemma ReadTwice(s: Controller, port: nat)
    ensures Read(Read(s, port).next, port).value == Read(s, port).value
    ensures Read(Read(s, port).next, port).next == Read(s, port).next
  {
  }

  /** Reads and writes keep the controller invariant. */
  lemma PortsPreserveWf(s: Controller, port: nat, value: nat)
    requires Wf(s)
    ensures Wf(Read(s, port).next)
    ensures Wf(Write(s, port, value))
  {
    if port == CommandPort {
      DispatchPreservesWf(s.(regs := s.regs.(command := ToBv8(value))));
    }
  }

  /**
   * A Type I command byte laid out as the datasheet gives it, written to an
   * idle controller, starts that command with the step rate, V, h and (for
   * the Step family) u it encodes, and Step-In and Step-Out fix the direction.
   */
  lemma TypeICommandByte(s: Controller, c: CommandName, rate: bv8, verify: bool, headLoad: bool, trackUpdate: bool)
    requires TypeOf(c) == TypeI && rate < 4 && !Busy(s)
    ensures var r := Write(s, CommandPort, EncodeTypeI(c, rate, verify, headLoad, trackUpdate) as int);
      && r.cmdType == TypeI && r.cmdName == c && Busy(r)
      && r.typeI.stepRate == StepRateMs(rate)
      && r.typeI.verify == verify && r.typeI.headLoad == headLoad
      && (c == Step || c == StepIn || c == StepOut ==> r.typeI.trackUpdate == trackUpdate)
      && (c == StepIn ==> r.pins.direction == In)
      && (c == StepOut ==> r.pins.direction == Out)
      && (c == Seek ==> r.regs.track == ToByte(s.currentTrack))
      && !r.progress.commandDone && !r.progress.actionDone
      && (headLoad && !s.pins.hld ==> r.pins.hld && !r.pins.hlt && r.hltTimerActive && r.timers.hlt == 0 && r.timers.hldIdle == 0)
      && r.regs.sector == s.regs.sector && r.regs.data == s.regs.data
  {
    var b := EncodeTypeI(c, rate, verify, headLoad, trackUpdate);
    ToBv8Widened(b);
    TypeIFields(c, rate, verify, headLoad, trackUpdate);
    StartTypeI(s.(regs := s.regs.(command := b)), c, rate, verify, headLoad, trackUpdate);
  }

  /** What a Type I command register, dispatched on an idle controller, sets up. */
  lemma StartTypeI(s: Controller, c: CommandName, rate: bv8, verify: bool, headLoad: bool, trackUpdate: bool)
    requires !Busy(s) && rate < 4 && TypeOf(c) == TypeI
    requires Decode(s.regs.command) == c && s.regs.command & 3 == rate
    requires Bit(s.regs.command, 2) == verify && Bit(s.regs.command, 3) == headLoad
    requires c == Step || c == StepIn || c == StepOut ==> Bit(s.regs.command, 4) == trackUpdate
    ensures var r := Dispatch(s);
      && r.cmdType == TypeI && r.cmdName == c && Busy(r)
      && r.typeI.stepRate == StepRateMs(rate)
      && r.typeI.verify == verify && r.typeI.headLoad == headLoad
      && (c == Step || c == StepIn || c == StepOut ==> r.typeI.trackUpdate == trackUpdate)
      && (c == StepIn ==> r.pins.direction == In)
      && (c == StepOut ==> r.pins.direction == Out)
      && (c == Seek ==> r.regs.track == ToByte(s.currentTrack))
      && !r.progress.commandDone && !r.progress.actionDone
      && (headLoad && !s.pins.hld ==> r.pins.hld && !r.pins.hlt && r.hltTimerActive && r.timers.hlt == 0 && r.timers.hldIdle == 0)
      && r.regs.sector == s.regs.sector && r.regs.data == s.regs.data
  {
  }

  /**
   * A Type II command byte written to an idle controller with a ready drive
   * starts that command with the m, L, E and U it encodes.
   */
  lemma TypeIICommandByte(s: Controller, c: CommandName, multiple: bool, swapLength: bool, delay: bool, updateSso: bool, mark: bool)
    requires TypeOf(c) == TypeII && !Busy(s) && s.pins.ready
    ensures var r := Write(s, CommandPort, EncodeTypeII(c, multiple, swapLength, delay, updateSso, mark) as int);
      && r.cmdType == TypeII && r.cmdName == c && Busy(r) && !r.pins.intrq && !r.pins.drq
      && r.typeII.multipleRecords == multiple && r.typeII.swapSectorLength == swapLength
      && r.typeII.delay15ms == delay && r.typeII.updateSso == updateSso && r.pins.sso == updateSso
      && (c == WriteSector ==> r.typeII.dataAddressMark == mark)
      && (!s.pins.hld ==> r.pins.hld && !r.pins.hlt && r.hltTimerActive && r.timers.hlt == 0 && r.timers.hldIdle == 0)
      && r.regs.sector == s.regs.sector && r.regs.data == s.regs.data
  {
    var b := EncodeTypeII(c, multiple, swapLength, delay, updateSso, mark);
    ToBv8Widened(b);
    TypeIIFields(c, multiple, swapLength, delay, updateSso, mark);
    var s1 := s.(regs := s.regs.(command := b));
    assert Write(s, CommandPort, b as int) == NameTypeII(SetupTypeII(s1));
  }

  /**
   * A Type III command byte written to an idle controller with a ready drive
   * starts that command with the E and U it encodes, leaving DRQ and INTRQ
   * as they were.
   */
  lemma TypeIIICommandByte(s: Controller, c: CommandName, delay: bool, updateSso: bool)
    requires TypeOf(c) == TypeIII && !Busy(s) && s.pins.ready
    ensures var r := Write(s, CommandPort, EncodeTypeIII(c, delay, updateSso) as int);
      && r.cmdType == TypeIII && r.cmdName == c && Busy(r)
      && r.pins.intrq == s.pins.intrq && r.pins.drq == s.pins.drq
      && r.typeII.delay15ms == delay && r.typeII.updateSso == updateSso && r.pins.sso == updateSso
      && (!s.pins.hld ==> r.pins.hld && !r.pins.hlt && r.hltTimerActive && r.timers.hlt == 0 && r.timers.hldIdle == 0)
      && r.regs.sector == s.regs.sector && r.regs.data == s.regs.data
  {
    var b := EncodeTypeIII(c, delay, updateSso);
    ToBv8Widened(b);
    TypeIIIFields(c, delay, updateSso);
    var s1 := s.(regs := s.regs.(command := b));
    assert Write(s, CommandPort, b as int) == NameTypeIII(SetupTypeIII(s1));
  }

  /**
   * A Type II or III command byte written to an idle controller whose drive
   * is not ready ends at once: done, BUSY clear, INTRQ raised, and no timer
   * touched, so an idle head unload keeps its count.
   */
  lemma NotReadyCommandByte(s: Controller, b: bv8)
    requires !Busy(s) && !s.pins.ready
    requires TypeOf(Decode(b)) == TypeII || TypeOf(Decode(b)) == TypeIII
    ensures var r := Write(s, CommandPort, b as int);
      && r.progress.commandDone && !Busy(r) && r.pins.intrq
      && r.timers == s.timers && r.pins.hld == s.pins.hld
  {
    ToBv8Widened(b);
    var s1 := s.(regs := s.regs.(command := b));
    assert Write(s, CommandPort, b as int) == Dispatch(s1);
    NotReadyDispatch(s1);
  }

  /** What a Type II or III command register, dispatched on an idle controller with the drive not ready, does. */
  lemma NotReadyDispatch(s: Controller)
    requires !Busy(s) && !s.pins.ready
    requires TypeOf(Decode(s.regs.command)) == TypeII || TypeOf(Decode(s.regs.command)) == TypeIII
    ensures var r := Dispatch(s);
      && r.progress.commandDone && !Busy(r) && r.pins.intrq
      && r.timers == s.timers && r.pins.hld == s.pins.hld
  {
    if TypeOf(Decode(s.regs.command)) == TypeII {
      assert Dispatch(s) == NameTypeII(SetupTypeII(s));
    } else {
      assert Dispatch(s) == NameTypeIII(SetupTypeIII(s));
    }
  }

  /**
   * A Force Interrupt byte arms exactly the conditions it encodes, and asks
   * for termination when it encodes none.
   */
  lemma ForceInterruptByte(s: Controller, i: InterruptFlags)
    ensures var r := Write(s, CommandPort, EncodeForceInterrupt(i) as int);
      && r.cmdType == TypeIV && r.interrupts == i
      && (i == InterruptFlags(false, false, false, false) ==> r.progress.terminate)
      && (i != InterruptFlags(false, false, false, false) ==> r.progress.terminate == s.progress.terminate)
  {
    ToBv8Widened(EncodeForceInterrupt(i));
    ForceInterruptFields(i);
  }
}

=== FILE: runs.dfy ===
/**
 * Whole commands over many clock calls: a Restore reaches cylinder 0, a
 * Seek reaches the data register, and a single-record Read Sector
 * delivers the rest of its sector and ends, each after a number of
 * calls fixed by the distance or the byte count.
 */
module Runs {
  import opened Bits
  import opened Fdc
  import opened Stepping
  import opened Transfer
  import opened Clock

  // ---- Restore ----

  /** A Restore still stepping, with clock calls at least one step-rate interval apart. */
  predicate Restoring(s: Controller, dt: nat)
  {
    && s.cmdType == TypeI && s.cmdName == Restore
    && !s.progress.commandDone && !s.progress.actionDone
    && dt >= StepIntervalUs(s)
  }

  /**
   * One clock call of a Restore: off cylinder 0 the head steps out by one
   * cylinder; on cylinder 0 the action ends with the track register at 0.
   */
  lemma RestoreCycle(s: Controller, dt: nat)
    requires Restoring(s, dt)
    ensures var r := Cycle(s, dt);
      && (s.currentTrack != 0 ==> Restoring(r, dt) && r.currentTrack == s.currentTrack - 1)
      && (s.currentTrack == 0 ==>
            r.progress.actionDone && !r.progress.commandDone && r.regs.track == 0 && r.currentTrack == 0)
  {
    var s1 := BeforeStep(s, dt);
    assert StepDue(s1, dt);
    var s2 := CommandStep(s1, dt);
    assert s2 == WithHead(s1, RestoreAction(s1, dt));
  }

  /**
   * A clock call too short for the step-rate interval to elapse, with the
   * head off cylinder 0, only counts on the step timer: the head, the track
   * register and the byte pointer stay, and the Restore keeps stepping.
   */
  lemma RestoreWait(s: Controller, dt: nat)
    requires s.cmdType == TypeI && s.cmdName == Restore
    requires !s.progress.commandDone && !s.progress.actionDone
    requires s.currentTrack != 0 && !StepDue(s, dt)
    ensures var r := Cycle(s, dt);
      && r.currentTrack == s.currentTrack && r.regs.track == s.regs.track && r.diskPointer == s.diskPointer
      && !r.progress.actionDone && !r.progress.commandDone && r.timers.step == s.timers.step + dt
  {
    var s1 := BeforeStep(s, dt);
    assert !StepDue(s1, dt) && s1.pins.notTrack00;
    var s2 := CommandStep(s1, dt);
    assert s2 == WithHead(s1, RestoreAction(s1, dt));
  }

  /** A Restore still stepping, `cylinder` cylinders out from cylinder 0. */
  predicate RestoringFrom(s: Controller, dt: nat, cylinder: int)
  {
    Restoring(s, dt) && s.currentTrack == cylinder
  }

  /** A Restore off cylinder 0 is still restoring after one clock call, one cylinder further out. */
  lemma RestoreAdvance(s: Controller, dt: nat, k: nat)
    requires RestoringFrom(s, dt, k) && k > 0
    ensures RestoringFrom(Cycle(s, dt), dt, k - 1)
  {
    RestoreCycle(s, dt);
  }

  /**
   * From cylinder `k`, a Restore whose clock calls are one step-rate
   * interval apart steps out `k` times and ends its action on the next
   * call, with head and track register at 0.
   */
  lemma RestoreRun(s: Controller, dt: nat, k: nat)
    requires Restoring(s, dt) && s.currentTrack == k
    ensures var r := Run(s, dt, k + 1);
      r.progress.actionDone && !r.progress.commandDone && r.regs.track == 0 && r.currentTrack == 0
  {
    RestoreNotBefore(s, dt, k);
    RestoreCycle(Run(s, dt, k), dt);
    RunLast(s, dt, k);
  }

  /** ... and after the first `k` of those calls it is still restoring, on cylinder 0. */
  lemma {:induction false} RestoreNotBefore(s: Controller, dt: nat, k: nat)
    requires RestoringFrom(s, dt, k)
    ensures RestoringFrom(Run(s, dt, k), dt, 0)
    decreases k
  {
    if k > 0 {
      var m := k - 1;
      var c := RestoreStep(s, dt, m);
      RestoreNotBefore(c, dt, m);
      assert Run(s, dt, k) == Run(c, dt, m);
    } else {
      assert Run(s, dt, k) == s;
    }
  }

  /** The state after the first clock call of such a Restore, with that call split off the front of `Run`. */
  lemma RestoreStep(s: Controller, dt: nat, m: nat) returns (c: Controller)
    requires RestoringFrom(s, dt, m + 1)
    ensures RestoringFrom(c, dt, m) && Run(s, dt, m + 1) == Run(c, dt, m)
  {
    RestoreAdvance(s, dt, m + 1);
    c := Cycle(s, dt);
    RunFirst(s, dt, m);
  }

  // ---- Seek ----

  /** A Seek still stepping, track register on the head, clock calls one step-rate interval apart. */
  predicate Seeking(s: Controller, dt: nat)
  {
    && s.cmdType == TypeI && s.cmdName == Seek
    && !s.progress.commandDone && !s.progress.actionDone
    && s.regs.track == s.currentTrack
    && dt >= StepIntervalUs(s)
  }

  /**
   * One clock call of a Seek: while the track and data registers differ
   * the head and the track register move one cylinder towards the data
   * register; once they agree the action ends.
   */
  lemma SeekCycle(s: Controller, dt: nat)
    requires Seeking(s, dt)
    ensures var r := Cycle(s, dt);
      && (s.regs.track == s.regs.data ==>
            r.progress.actionDone && !r.progress.commandDone && r.regs.track == s.regs.track
            && r.currentTrack == s.currentTrack)
      && (s.regs.track != s.regs.data ==>
            Seeking(r, dt) && r.regs.data == s.regs.data
            && r.currentTrack == s.currentTrack + (if s.regs.track < s.regs.data then 1 else -1))
  {
    var s1 := BeforeStep(s, dt);
    assert StepDue(s1, dt);
    var s2 := CommandStep(s1, dt);
    assert s2 == WithHead(s1, SeekAction(s1, dt));
  }

  /**
   * A clock call too short for the step-rate interval to elapse, with the
   * track and data registers apart, only counts on the step timer: the
   * head, both registers and the byte pointer stay, and the Seek keeps
   * stepping.
   */
  lemma SeekWait(s: Controller, dt: nat)
    requires s.cmdType == TypeI && s.cmdName == Seek
    requires !s.progress.commandDone && !s.progress.actionDone
    requires s.regs.track != s.regs.data && !StepDue(s, dt)
    ensures var r := Cycle(s, dt);
      && r.currentTrack == s.currentTrack && r.regs.track == s.regs.track && r.regs.data == s.regs.data
      && r.diskPointer == s.diskPointer
      && !r.progress.actionDone && !r.progress.commandDone && r.timers.step == s.timers.step + dt
  {
    var s1 := BeforeStep(s, dt);
    assert !StepDue(s1, dt);
    var s2 := CommandStep(s1, dt);
    assert s2 == WithHead(s1, SeekAction(s1, dt));
  }

  /** A Seek still stepping towards `target`, `gap` cylinders away. */
  predicate SeekingTowards(s: Controller, dt: nat, target: int, gap: nat)
  {
    Seeking(s, dt) && s.regs.data == target && SeekDistance(s) == gap
  }

  /** A Seek short of its target is still seeking after one clock call, one cylinder closer. */
  lemma SeekAdvance(s: Controller, dt: nat, target: int, gap: nat)
    requires SeekingTowards(s, dt, target, gap) && gap > 0
    ensures SeekingTowards(Cycle(s, dt), dt, target, gap - 1)
  {
    SeekCycle(s, dt);
    var r := Cycle(s, dt);
    assert Seeking(r, dt) && r.regs.data == target;
    if s.regs.track < s.regs.data {
      assert r.regs.track == s.regs.track + 1 <= r.regs.data;
      assert SeekDistance(r) == s.regs.data - s.currentTrack - 1;
    } else {
      assert r.regs.track == s.regs.track - 1 >= r.regs.data;
      assert SeekDistance(r) == s.currentTrack - s.regs.data - 1;
    }
  }

  /**
   * A Seek whose clock calls are one step-rate interval apart reaches the
   * data register after as many calls as the two registers are apart, and
   * ends its action on the next call.
   */
  lemma SeekRun(s: Controller, dt: nat, k: nat)
    requires Seeking(s, dt) && k == SeekDistance(s)
    ensures var r := Run(s, dt, k + 1);
      && r.progress.actionDone && !r.progress.commandDone
      && r.regs.track == s.regs.data && r.currentTrack == s.regs.data
  {
    SeekNotBefore(s, dt, s.regs.data, k);
    SeekCycle(Run(s, dt, k), dt);
    RunLast(s, dt, k);
  }

  /** ... and after the first `k` of those calls it is still seeking, on the target. */
  lemma {:induction false} SeekNotBefore(s: Controller, dt: nat, target: int, k: nat)
    requires SeekingTowards(s, dt, target, k)
    ensures SeekingTowards(Run(s, dt, k), dt, target, 0)
    decreases k
  {
    if k > 0 {
      var c := Cycle(s, dt);
      SeekAdvance(s, dt, target, k);
      SeekNotBefore(c, dt, target, k - 1);
      RunFirst(s, dt, k - 1);
      assert Run(s, dt, k) == Run(c, dt, k - 1);
    }
  }

  // ---- Read Sector ----

  /** Bytes of the current sector not yet delivered. */
  function Remaining(s: Controller): int
  {
    s.rwStartByte + s.disk.geometry.sectorLength - s.diskPointer
  }

  /**
   * A single-record Read Sector past its gates, bytes left to deliver,
   * with clock calls at least one byte time (26.67 us) apart.
   */
  predicate Reading(s: Controller, dt: nat)
  {
    && s.cmdType == TypeII && s.cmdName == ReadSector
    && !s.progress.commandDone && Busy(s)
    && !DelayPending(s) && s.pins.hlt && s.progress.startByteSet
    && !s.typeII.multipleRecords
    && dt * 100 >= AssembleByteCentiUs
    && Remaining(s) >= 1
  }

  /**
   * One clock call of such a read delivers the byte under the pointer
   * into the data register with DRQ high; the last byte of the sector
   * ends the command with BUSY cleared and INTRQ raised.
   */
  lemma ReadCycle(s: Controller, dt: nat)
    requires Reading(s, dt)
    ensures var r := Cycle(s, dt);
      && r.regs.data == ImageByte(s.disk, s.diskPointer)
      && (Remaining(s) > 1 ==>
            Reading(r, dt) && r.diskPointer == s.diskPointer + 1 && Remaining(r) == Remaining(s) - 1 && r.pins.drq)
      && (Remaining(s) == 1 ==> r.progress.commandDone && !Busy(r) && r.pins.intrq)
  {
    var s1 := BeforeStep(s, dt);
    assert ByteDue(s1, dt);
    var s2 := CommandStep(s1, dt);
    assert s2 == ReadSectorStep(PlacePointer(UpdateTg43(s1)), dt);
  }

  /**
   * A clock call too short for the byte-assembly time to elapse only counts
   * on the assembly timer: the data register, the byte pointer and DRQ
   * stay, and the read goes on.
   */
  lemma ReadWait(s: Controller, dt: nat)
    requires s.cmdType == TypeII && s.cmdName == ReadSector && !s.progress.commandDone
    requires !DelayPending(s) && s.pins.hlt && s.progress.startByteSet && !ByteDue(s, dt)
    ensures var r := Cycle(s, dt);
      && r.regs.data == s.regs.data && r.diskPointer == s.diskPointer && r.pins.drq == s.pins.drq
      && !r.progress.commandDone && r.timers.assembleByte == s.timers.assembleByte + dt
  {
    var s1 := BeforeStep(s, dt);
    assert !ByteDue(s1, dt);
    var s2 := CommandStep(s1, dt);
    assert s2 == ReadSectorStep(PlacePointer(UpdateTg43(s1)), dt);
  }

  /**
   * A single-record Read Sector that has just passed its gates, its byte
   * pointer not yet placed on the sector, with clock calls at least one
   * byte time apart.
   */
  predicate ReadStarting(s: Controller, dt: nat)
  {
    && s.cmdType == TypeII && s.cmdName == ReadSector
    && !s.progress.commandDone && Busy(s)
    && !DelayPending(s) && s.pins.hlt && !s.progress.startByteSet
    && !s.typeII.multipleRecords
    && dt * 100 >= AssembleByteCentiUs
  }

  /**
   * The first clock call past the gates places the pointer on the sector
   * the registers select and delivers its first byte; the rest of the
   * sector is left to read, and a sector of one byte ends the command.
   */
  lemma ReadStartCycle(s: Controller, dt: nat)
    requires ReadStarting(s, dt)
    ensures var r := Cycle(s, dt);
      && r.rwStartByte == TargetByte(s) && r.diskPointer == TargetByte(s) + 1
      && r.regs.data == ImageByte(s.disk, TargetByte(s))
      && (s.disk.geometry.sectorLength > 1 ==>
            Reading(r, dt) && Remaining(r) == s.disk.geometry.sectorLength - 1 && r.pins.drq)
      && (s.disk.geometry.sectorLength <= 1 ==> r.progress.commandDone && !Busy(r) && r.pins.intrq)
  {
    var s1 := BeforeStep(s, dt);
    assert ByteDue(s1, dt);
    assert TargetByte(s1) == TargetByte(s);
    FirstByte(s1, dt);
    var s2 := CommandStep(s1, dt);
    assert s2 == TypeIIStep(s1, dt);
  }

  /**
   * A first clock call past the gates too short for the byte-assembly time
   * to elapse only places the pointer on the selected sector and counts on
   * the assembly timer: no byte is delivered and the read goes on.
   */
  lemma ReadStartWait(s: Controller, dt: nat)
    requires s.cmdType == TypeII && s.cmdName == ReadSector && !s.progress.commandDone
    requires !DelayPending(s) && s.pins.hlt && !s.progress.startByteSet && !ByteDue(s, dt)
    ensures var r := Cycle(s, dt);
      && r.progress.startByteSet && r.rwStartByte == TargetByte(s) && r.diskPointer == TargetByte(s)
      && r.regs.data == s.regs.data && r.pins.drq == s.pins.drq
      && !r.progress.commandDone && r.timers.assembleByte == s.timers.assembleByte + dt
  {
    var s1 := BeforeStep(s, dt);
    assert !ByteDue(s1, dt);
    assert TargetByte(s1) == TargetByte(s);
    PlacedEarly(s1, dt);
    assert CommandStep(s1, dt) == TypeIIStep(s1, dt);
  }

  /**
   * The state after the first clock call of such a read, with that call
   * split off the front of a run of `n + 1` calls.
   */
  lemma ReadStartStep(s: Controller, dt: nat, k: nat, n: nat) returns (c: Controller)
    requires ReadStarting(s, dt) && s.disk.geometry.sectorLength == k + 1
    ensures k > 0 ==> Reading(c, dt) && Remaining(c) == k
    ensures k == 0 ==> c.progress.commandDone && !Busy(c) && c.pins.intrq
    ensures Run(s, dt, n + 1) == Run(c, dt, n)
  {
    ReadStartCycle(s, dt);
    c := Cycle(s, dt);
    RunFirst(s, dt, n);
  }

  /**
   * A whole single-record Read Sector from its first step past the gates:
   * with a sector of `k + 1` bytes the command ends after `k + 1` clock
   * calls, with BUSY cleared and INTRQ raised.
   */
  lemma ReadSectorRun(s: Controller, dt: nat, k: nat)
    requires ReadStarting(s, dt) && s.disk.geometry.sectorLength == k + 1
    ensures var r := Run(s, dt, k + 1); r.progress.commandDone && !Busy(r) && r.pins.intrq
  {
    var c := ReadStartStep(s, dt, k, k);
    ReadRest(s, c, dt, k);
  }

  /** The rest of such a read, from the state `c` its first clock call leaves. */
  lemma ReadRest(s: Controller, c: Controller, dt: nat, k: nat)
    requires Run(s, dt, k + 1) == Run(c, dt, k)
    requires k > 0 ==> Reading(c, dt) && Remaining(c) == k
    requires k == 0 ==> c.progress.commandDone && !Busy(c) && c.pins.intrq
    ensures var r := Run(s, dt, k + 1); r.progress.commandDone && !Busy(r) && r.pins.intrq
  {
    if k > 0 {
      ReadRun(c, dt, k - 1);
    }
  }

  /**
   * ... and not before: with a sector of `n + 2` bytes the command is still
   * busy after `n + 1` clock calls (a sector of one byte is busy before its
   * single call by assumption).
   */
  lemma ReadSectorNotBefore(s: Controller, dt: nat, n: nat)
    requires ReadStarting(s, dt) && s.disk.geometry.sectorLength == n + 2
    ensures var m := Run(s, dt, n + 1); Busy(m) && !m.progress.commandDone
  {
    var c := ReadStartStep(s, dt, n + 1, n);
    ReadRestBefore(s, c, dt, n);
  }

  /** The `n` clock calls after the first one of such a read leave it busy. */
  lemma ReadRestBefore(s: Controller, c: Controller, dt: nat, n: nat)
    requires Run(s, dt, n + 1) == Run(c, dt, n)
    requires Reading(c, dt) && Remaining(c) == n + 1
    ensures var m := Run(s, dt, n + 1); Busy(m) && !m.progress.commandDone
  {
    ReadNotBefore(c, dt, n);
  }

  /** The first of `n + 1` clock calls. */
  lemma RunFirst(s: Controller, dt: nat, n: nat)
    ensures Run(s, dt, n + 1) == Run(Cycle(s, dt), dt, n)
  {
  }

  /** The last of `n + 1` clock calls. */
  lemma {:induction false} RunLast(s: Controller, dt: nat, n: nat)
    ensures Run(s, dt, n + 1) == Cycle(Run(s, dt, n), dt)
    decreases n, 1
  {
    if n > 0 {
      RunLastStep(s, dt, n);
    } else {
      assert Run(s, dt, 1) == Run(Cycle(s, dt), dt, 0);
    }
  }

  /** The inductive step of `RunLast`: split the first call off both sides. */
  lemma {:induction false} RunLastStep(s: Controller, dt: nat, n: nat)
    requires n > 0
    ensures Run(s, dt, n + 1) == Cycle(Run(s, dt, n), dt)
    decreases n, 0
  {
    var c := Cycle(s, dt);
    var m := n - 1;
    RunLast(c, dt, m);
    assert Run(s, dt, m + 1) == Run(c, dt, m);
  }

  /**
   * A single-record read with `k + 1` bytes left ends after `k + 1`
   * clock calls, BUSY cleared and INTRQ raised.
   */
  lemma ReadRun(s: Controller, dt: nat, k: nat)
    requires Reading(s, dt) && Remaining(s) == k + 1
    ensures var r := Run(s, dt, k + 1); r.progress.commandDone && !Busy(r) && r.pins.intrq
  {
    ReadNotBefore(s, dt, k);
    ReadCycle(Run(s, dt, k), dt);
    RunLast(s, dt, k);
  }

  /**
   * ... and not before: after `k` of those calls the read is still busy,
   * with exactly the last byte of the sector left.
   */
  lemma {:induction false} ReadNotBefore(s: Controller, dt: nat, k: nat)
    requires Reading(s, dt) && Remaining(s) == k + 1
    ensures Reading(Run(s, dt, k), dt) && Remaining(Run(s, dt, k)) == 1
    decreases k
  {
    if k > 0 {
      var c := Cycle(s, dt);
      ReadAdvance(s, dt);
      ReadNotBefore(c, dt, k - 1);
      RunFirst(s, dt, k - 1);
      assert Run(s, dt, k) == Run(c, dt, k - 1);
    }
  }

  /** A read with more than one byte left is still reading after one clock call, with one byte fewer left. */
  lemma ReadAdvance(s: Controller, dt: nat)
    requires Reading(s, dt) && Remaining(s) > 1
    ensures Reading(Cycle(s, dt), dt) && Remaining(Cycle(s, dt)) == Remaining(s) - 1
  {
    ReadCycle(s, dt);
  }
}

=== FILE: setup.dfy ===
/**
 * Command acceptance: the busy rule and, per command type, the setup of
 * flags, status bits and pins that a newly written command byte performs.
 */
module Setup {
  import opened Bits
  import opened Fdc
  import opened Decoder

  /** Step-rate table of a 1 MHz clock, in milliseconds, indexed by command bits 1-0. */
  function StepRateMs(code: bv8): nat
    requires code < 4
  {
    [6, 12, 20, 30][code as int]
  }

  /**
   * Type I setup: BUSY set, S3 and S4 cleared, DRQ and INTRQ dropped, step
   * rate, V and h decoded, and HLD driven by the h/V truth table: neither
   * unloads the head, V alone defers the load to the end of stepping, and h
   * loads it at once unless it is already loaded.
   */
  function SetupTypeI(s: Controller): (r: Controller)
    ensures r.cmdType == TypeI && Busy(r) && !r.progress.commandDone && !r.progress.actionDone
    ensures !r.progress.headSettlingDone && r.timers.step == 0
    ensures !r.pins.drq && !r.pins.intrq
    ensures r.typeI.stepRate == StepRateMs(s.regs.command & 3)
    ensures r.typeI.verify == Bit(s.regs.command, 2) && r.typeI.headLoad == Bit(s.regs.command, 3)
    ensures !r.typeI.headLoad && !r.typeI.verify ==> !r.pins.hld
    ensures !r.typeI.headLoad && r.typeI.verify ==> r.delayedHld && r.pins.hld == s.pins.hld
    ensures r.typeI.headLoad ==> r.pins.hld && (s.pins.hld ==> r.pins.hlt == s.pins.hlt)
    ensures r.typeI.headLoad && !s.pins.hld ==> !r.pins.hlt && r.hltTimerActive && r.timers.hlt == 0 && r.timers.hldIdle == 0
    ensures r.regs.command == s.regs.command && r.regs.track == s.regs.track
    ensures r.regs.sector == s.regs.sector && r.regs.data == s.regs.data
    ensures r.currentTrack == s.currentTrack && r.disk == s.disk
    ensures r.pins.indexPulse == s.pins.indexPulse && r.timers.indexPulse == s.timers.indexPulse
  {
    var cmd := s.regs.command;
    var verify := Bit(cmd, 2);
    var headLoad := Bit(cmd, 3);
    var s1 := s.(cmdType := TypeI,
                 progress := s.progress.(actionDone := false, commandDone := false, headSettlingDone := false),
                 timers := s.timers.(step := 0),
                 regs := s.regs.(status := (s.regs.status | BusyMask) & 0xE7),
                 pins := s.pins.(drq := false, intrq := false),
                 typeI := s.typeI.(stepRate := StepRateMs(cmd & 3), verify := verify, headLoad := headLoad));
    if !headLoad && !verify then s1.(pins := s1.pins.(hld := false))
    else if !headLoad then s1.(delayedHld := true)
    else if !s1.pins.hld then LoadHead(s1)
    else s1
  }

  /**
   * Names the Type I command. Seek copies the head position into the track
   * register; the Step family takes u from bit 4, and Step-In and Step-Out
   * force the direction pin.
   */
  function NameTypeI(s: Controller): (r: Controller)
    requires TypeOf(Decode(s.regs.command)) == TypeI
    ensures r.cmdName == Decode(s.regs.command)
    ensures r.cmdName == Seek ==> r.regs.track == ToByte(s.currentTrack)
    ensures r.cmdName != Seek ==> r.regs.track == s.regs.track
    ensures r.cmdName in {Step, StepIn, StepOut} ==> r.typeI.trackUpdate == Bit(s.regs.command, 4)
    ensures r.cmdName in {Restore, Seek} ==> r.typeI == s.typeI
    ensures r.pins.direction == match r.cmdName
                                case StepIn => In
                                case StepOut => Out
                                case _ => s.pins.direction
    ensures r.cmdType == s.cmdType && r.regs.command == s.regs.command
    ensures r.regs.sector == s.regs.sector && r.regs.data == s.regs.data
    ensures r.progress == s.progress && r.pins.hld == s.pins.hld && r.pins.hlt == s.pins.hlt
    ensures r.hltTimerActive == s.hltTimerActive && r.timers == s.timers
    ensures r.currentTrack == s.currentTrack && r.disk == s.disk
    ensures r.pins.indexPulse == s.pins.indexPulse && r.timers.indexPulse == s.timers.indexPulse
  {
    var c := Decode(s.regs.command);
    var s1 := s.(cmdName := c);
    if c == Seek then s1.(regs := s1.regs.(track := ToByte(s.currentTrack)))
    else if c == Restore then s1
    else
      var s2 := s1.(typeI := s1.typeI.(trackUpdate := Bit(s.regs.command, 4)));
      if c == StepIn then s2.(pins := s2.pins.(direction := In))
      else if c == StepOut then s2.(pins := s2.pins.(direction := Out))
      else s2
  }

  /**
   * Type II setup: BUSY set, DRQ, INTRQ and S1, S2, S4-S6 cleared; a drive
   * that is not ready ends the command at once with BUSY cleared and INTRQ
   * raised. Otherwise U, E, L and m are decoded, SSO follows U and the head
   * is loaded if it is not already.
   */
  function SetupTypeII(s: Controller): (r: Controller)
    ensures r.cmdType == TypeII && !r.pins.drq && !r.progress.startByteSet && !r.progress.eDelayDone
    ensures !s.pins.ready ==> r.progress.commandDone && !Busy(r) && r.pins.intrq
    ensures s.pins.ready ==> !r.progress.commandDone && Busy(r) && !r.pins.intrq
    ensures r.regs.command == s.regs.command && r.currentTrack == s.currentTrack && r.disk == s.disk
    ensures s.pins.ready ==>
              && r.typeII.updateSso == Bit(s.regs.command, 1) && r.pins.sso == r.typeII.updateSso
              && r.typeII.delay15ms == Bit(s.regs.command, 2)
              && r.typeII.swapSectorLength == Bit(s.regs.command, 3)
              && r.typeII.multipleRecords == Bit(s.regs.command, 4)
              && r.pins.hld && r.timers.eDelay == 0
    ensures s.pins.ready && !s.pins.hld ==> !r.pins.hlt && r.hltTimerActive && r.timers.hlt == 0 && r.timers.hldIdle == 0
    ensures !s.pins.ready ==> r.typeII == s.typeII && r.pins.hld == s.pins.hld && r.timers == s.timers
    ensures r.regs.sector == s.regs.sector && r.regs.data == s.regs.data
    ensures r.pins.indexPulse == s.pins.indexPulse && r.timers.indexPulse == s.timers.indexPulse
  {
    var cmd := s.regs.command;
    var s1 := s.(cmdType := TypeII,
                 progress := s.progress.(commandDone := false, eDelayDone := false, startByteSet := false),
                 regs := s.regs.(status := (s.regs.status | BusyMask) & 0x89),
                 pins := s.pins.(drq := false, intrq := false));
    if !s1.pins.ready then
      Cancel(s1)
    else
      var u := Bit(cmd, 1);
      var s2 := s1.(typeII := s1.typeII.(updateSso := u, delay15ms := Bit(cmd, 2),
                                         swapSectorLength := Bit(cmd, 3), multipleRecords := Bit(cmd, 4)),
                    pins := s1.pins.(sso := u));
      var s3 := HeadLoaded(s2);
      s3.(timers := s3.timers.(eDelay := 0))
  }

  /** Names the Type II command; Write Sector also takes the data address mark from bit 0. */
  function NameTypeII(s: Controller): (r: Controller)
    requires TypeOf(Decode(s.regs.command)) == TypeII
    ensures r.cmdName == Decode(s.regs.command)
    ensures r.cmdName == WriteSector ==> r.typeII == s.typeII.(dataAddressMark := Bit(s.regs.command, 0))
    ensures r.cmdName == ReadSector ==> r.typeII == s.typeII
    ensures r.regs == s.regs && r.pins == s.pins && r.progress == s.progress
    ensures r.cmdType == s.cmdType && r.currentTrack == s.currentTrack && r.disk == s.disk
    ensures r.pins.indexPulse == s.pins.indexPulse && r.timers.indexPulse == s.timers.indexPulse
  {
    var c := Decode(s.regs.command);
    if c == WriteSector then
      s.(cmdName := c, typeII := s.typeII.(dataAddressMark := Bit(s.regs.command, 0)))
    else
      s.(cmdName := c)
  }

  /**
   * Type III setup: BUSY set and S2, S4, S5 cleared, but DRQ and INTRQ left
   * as they were; the not-ready abort is as for Type II. Otherwise U and E
   * are decoded, SSO follows U and the head is loaded.
   */
  function SetupTypeIII(s: Controller): (r: Controller)
    ensures r.cmdType == TypeIII && !r.progress.eDelayDone
    ensures !s.pins.ready ==> r.progress.commandDone && !Busy(r) && r.pins.intrq
    ensures s.pins.ready ==> !r.progress.commandDone && Busy(r) && r.pins.intrq == s.pins.intrq
    ensures r.pins.drq == s.pins.drq
    ensures r.regs.command == s.regs.command && r.currentTrack == s.currentTrack && r.disk == s.disk
    ensures s.pins.ready ==>
              && r.typeII.updateSso == Bit(s.regs.command, 1) && r.pins.sso == r.typeII.updateSso
              && r.typeII.delay15ms == Bit(s.regs.command, 2) && r.pins.hld
    ensures s.pins.ready && !s.pins.hld ==> !r.pins.hlt && r.hltTimerActive && r.timers.hlt == 0 && r.timers.hldIdle == 0
    ensures !s.pins.ready ==> r.typeII == s.typeII && r.pins.hld == s.pins.hld && r.timers == s.timers
    ensures r.regs.sector == s.regs.sector && r.regs.data == s.regs.data
    ensures r.pins.indexPulse == s.pins.indexPulse && r.timers.indexPulse == s.timers.indexPulse
  {
    var cmd := s.regs.command;
    var s1 := s.(cmdType := TypeIII,
                 progress := s.progress.(commandDone := false, eDelayDone := false),
                 regs := s.regs.(status := (s.regs.status | BusyMask) & 0xCB));
    if !s1.pins.ready then
      Cancel(s1)
    else
      var u := Bit(cmd, 1);
      var s2 := s1.(typeII := s1.typeII.(updateSso := u, delay15ms := Bit(cmd, 2)),
                    pins := s1.pins.(sso := u));
      HeadLoaded(s2)
  }

  /**
   * Loads the head unless HLD is already high; a fresh load drops HLT, arms
   * its one-shot from 0 and restarts the idle timer. Nothing else changes.
   */
  function HeadLoaded(s: Controller): (r: Controller)
    ensures r.pins.hld && (s.pins.hld ==> r == s)
    ensures !s.pins.hld ==> !r.pins.hlt && r.hltTimerActive && r.timers.hlt == 0 && r.timers.hldIdle == 0
    ensures r.regs == s.regs && r.progress == s.progress && r.typeII == s.typeII
    ensures r.cmdType == s.cmdType && r.currentTrack == s.currentTrack && r.disk == s.disk
    ensures r.pins.drq == s.pins.drq && r.pins.intrq == s.pins.intrq && r.pins.sso == s.pins.sso
    ensures r.pins.indexPulse == s.pins.indexPulse && r.timers.indexPulse == s.timers.indexPulse
  {
    if !s.pins.hld then LoadHead(s) else s
  }

  /** Names the Type III command from the high nibble of the command register. */
  function NameTypeIII(s: Controller): (r: Controller)
    requires TypeOf(Decode(s.regs.command)) == TypeIII
    ensures s.regs.command >> 4 == 12 ==> r.cmdName == ReadAddress
    ensures s.regs.command >> 4 == 14 ==> r.cmdName == ReadTrack
    ensures s.regs.command >> 4 == 15 ==> r.cmdName == WriteTrack
    ensures r.cmdName == Decode(s.regs.command) && TypeOf(r.cmdName) == TypeIII
    ensures r == s.(cmdName := r.cmdName)
  {
    s.(cmdName := Decode(s.regs.command))
  }

  /**
   * Force Interrupt: one interrupt condition per bit of the low nibble, and
   * `terminate` when the nibble is zero. Neither BUSY nor the stored command
   * name is touched, and the conditions are never acted upon.
   */
  function SetupForceInterrupt(s: Controller): (r: Controller)
    ensures r.cmdType == TypeIV
    ensures r.interrupts == InterruptFlags(Bit(s.regs.command, 0), Bit(s.regs.command, 1),
                                           Bit(s.regs.command, 2), Bit(s.regs.command, 3))
    ensures r.progress.terminate == (s.progress.terminate || s.regs.command & 0x0F == 0)
    ensures r.regs == s.regs && r.pins == s.pins && r.cmdName == s.cmdName
    ensures r.progress.commandDone == s.progress.commandDone
    ensures r.pins.indexPulse == s.pins.indexPulse && r.timers.indexPulse == s.timers.indexPulse
  {
    var cmd := s.regs.command;
    var s1 := s.(cmdType := TypeIV,
                 interrupts := InterruptFlags(Bit(cmd, 0), Bit(cmd, 1), Bit(cmd, 2), Bit(cmd, 3)));
    if cmd & 0x0F == 0 then s1.(progress := s1.progress.(terminate := true)) else s1
  }

  /**
   * Acts on the byte just stored in the command register. Force Interrupt is
   * always taken; any other command is ignored while BUSY is set, and
   * otherwise set up and named.
   */
  function Dispatch(s: Controller): (r: Controller)
    ensures Decode(s.regs.command) != ForceInterrupt && Busy(s) ==> r == s
    ensures Decode(s.regs.command) == ForceInterrupt || !Busy(s) ==> r.cmdType == TypeOf(Decode(s.regs.command))
    ensures r.regs.command == s.regs.command && r.disk == s.disk && r.currentTrack == s.currentTrack
    ensures r.regs.sector == s.regs.sector && r.regs.data == s.regs.data
    ensures r.pins.indexPulse == s.pins.indexPulse && r.timers.indexPulse == s.timers.indexPulse
  {
    var c := Decode(s.regs.command);
    if c == ForceInterrupt then SetupForceInterrupt(s)
    else if Busy(s) then s
    else if TypeOf(c) == TypeI then NameTypeI(SetupTypeI(s))
    else if TypeOf(c) == TypeII then NameTypeII(SetupTypeII(s))
    else NameTypeIII(SetupTypeIII(s))
  }

  /**
   * A command other than Force Interrupt, written while the controller is
   * idle, is named and started: BUSY is set exactly when it is a Type I
   * command or the drive is ready; a Type II or III command on a drive that
   * is not ready is already done, with INTRQ raised.
   */
  lemma DispatchStartsCommand(s: Controller)
    requires Decode(s.regs.command) != ForceInterrupt && !Busy(s)
    ensures Dispatch(s).cmdName == Decode(s.regs.command)
    ensures Busy(Dispatch(s)) <==> Dispatch(s).cmdType == TypeI || s.pins.ready
    ensures Busy(Dispatch(s)) <==> !Dispatch(s).progress.commandDone
    ensures Dispatch(s).cmdType != TypeI && !s.pins.ready ==> Dispatch(s).pins.intrq
  {
  }

  /** Force Interrupt neither sets nor clears BUSY, nor renames the current command. */
  lemma ForceInterruptKeepsCommand(s: Controller)
    requires Decode(s.regs.command) == ForceInterrupt
    ensures Busy(Dispatch(s)) == Busy(s) && Dispatch(s).cmdName == s.cmdName
    ensures Dispatch(s).progress.commandDone == s.progress.commandDone
  {
  }

  /** Dispatching a command keeps the controller invariant. */
  lemma DispatchPreservesWf(s: Controller)
    requires Wf(s)
    ensures Wf(Dispatch(s))
  {
    var c := Decode(s.regs.command);
    if c == ForceInterrupt {
      ForceInterruptKeepsCommand(s);
    } else if !Busy(s) {
      DispatchStartsCommand(s);
    }
  }

  /** Type I start: BUSY set, S3 (CRC error) and S4 (seek error) cleared, other bits kept. */
  lemma TypeIStartStatus(s: Controller)
    ensures SetupTypeI(s).regs.status & 0x19 == BusyMask
    ensures SetupTypeI(s).regs.status & 0xE6 == s.regs.status & 0xE6
  {
  }

  /**
   * Type II start: S1 (DRQ), S2 (lost data), S4-S6 cleared; S3 and S7 kept;
   * BUSY set only when the drive is ready.
   */
  lemma TypeIIStartStatus(s: Controller)
    ensures SetupTypeII(s).regs.status & 0x76 == 0
    ensures SetupTypeII(s).regs.status & 0x88 == s.regs.status & 0x88
    ensures Busy(SetupTypeII(s)) == s.pins.ready
  {
  }

  /**
   * Type III start: S2, S4 and S5 cleared; S1, S3, S6 and S7 kept; BUSY set
   * only when the drive is ready.
   */
  lemma TypeIIIStartStatus(s: Controller)
    ensures SetupTypeIII(s).regs.status & 0x34 == 0
    ensures SetupTypeIII(s).regs.status & 0xCA == s.regs.status & 0xCA
    ensures Busy(SetupTypeIII(s)) == s.pins.ready
  {
  }
}

=== FILE: stepping.dfy ===
/**
 * The Type I state machine: the stepping action of Restore, Seek, Step,
 * Step-In and Step-Out, one head step per elapsed step-rate interval, and
 * the post-action phase (delayed head load, verify settling, HLT sampling).
 *
 * Every function here runs after the cycle has sensed the lines, so
 * `pins.notTrack00` already tells whether the head is on cylinder 0.
 */
module Stepping {
  import opened Bits
  import opened Fdc

  /** The step-rate interval in microseconds. */
  function StepIntervalUs(s: Controller): nat
  {
    s.typeI.stepRate * 1000
  }

  /** Bytes of one track of one side in the image. */
  function TrackBytes(g: Geometry): int
  {
    g.sectorLength * g.sectorsPerTrack
  }

  /** The TR00 line agrees with the head position, as the cycle leaves it before a command step. */
  predicate Sensed(s: Controller)
  {
    s.pins.notTrack00 == (s.currentTrack != 0)
  }

  /** The step-rate interval has elapsed once `dt` more microseconds are counted. */
  predicate StepDue(s: Controller, dt: nat)
  {
    s.timers.step + dt >= StepIntervalUs(s)
  }

  /** The part of the controller a stepping action works on. */
  datatype Head = Head(
    trackRegister: Byte,
    direction: Direction,
    actionDone: bool,
    stepTimer: nat,
    cylinder: int,
    pointer: int)

  function HeadOf(s: Controller): Head
  {
    Head(s.regs.track, s.pins.direction, s.progress.actionDone, s.timers.step, s.currentTrack, s.diskPointer)
  }

  /** `s` with its head part replaced by `h`; nothing else changes. */
  function WithHead(s: Controller, h: Head): (r: Controller)
    ensures HeadOf(r) == h
    ensures r.cmdType == s.cmdType && r.cmdName == s.cmdName && r.typeI == s.typeI && r.typeII == s.typeII
    ensures r.regs.status == s.regs.status && r.regs.command == s.regs.command
    ensures r.regs.data == s.regs.data && r.regs.sector == s.regs.sector
    ensures r.pins.hld == s.pins.hld && r.pins.hlt == s.pins.hlt && r.pins.intrq == s.pins.intrq
    ensures r.pins.ready == s.pins.ready && r.pins.notMasterReset == s.pins.notMasterReset
    ensures r.pins.indexPulse == s.pins.indexPulse && r.pins.drq == s.pins.drq
    ensures r.progress.commandDone == s.progress.commandDone && r.disk == s.disk
    ensures r.timers.indexPulse == s.timers.indexPulse && r.timers.indexEncounter == s.timers.indexEncounter
  {
    s.(regs := s.regs.(track := h.trackRegister),
       pins := s.pins.(direction := h.direction),
       progress := s.progress.(actionDone := h.actionDone),
       timers := s.timers.(step := h.stepTimer),
       currentTrack := h.cylinder,
       diskPointer := h.pointer)
  }

  /** One head step towards `d`: the byte pointer follows by one track and the step timer restarts. */
  function Move(h: Head, d: Direction, trackBytes: int): Head
  {
    if d == In then h.(cylinder := h.cylinder + 1, pointer := h.pointer + trackBytes, stepTimer := 0)
    else h.(cylinder := h.cylinder - 1, pointer := h.pointer - trackBytes, stepTimer := 0)
  }

  /** The interval has not elapsed: only the step timer advances. */
  function Wait(h: Head, dt: nat): Head
  {
    h.(stepTimer := h.stepTimer + dt)
  }

  /** With the u flag, the track register follows the head. */
  function Follow(h: Head, trackUpdate: bool): Head
  {
    if trackUpdate then h.(trackRegister := ToByte(h.cylinder)) else h
  }

  /** The action is over. */
  function Finish(h: Head): Head
  {
    h.(actionDone := true)
  }

  /** The head took one step towards `d`: one cylinder, one track of bytes, and the step timer restarted. */
  predicate Stepped(s: Controller, r: Head, d: Direction)
  {
    && r.stepTimer == 0
    && (d == In ==> r.cylinder == s.currentTrack + 1 && r.pointer == s.diskPointer + TrackBytes(s.disk.geometry))
    && (d == Out ==> r.cylinder == s.currentTrack - 1 && r.pointer == s.diskPointer - TrackBytes(s.disk.geometry))
  }

  /** The head did not move, and the byte pointer stayed with it. */
  predicate Stayed(s: Controller, r: Head)
  {
    r.cylinder == s.currentTrack && r.pointer == s.diskPointer
  }

  /** Restore: step out until TR00, then zero the track register. */
  function RestoreAction(s: Controller, dt: nat): (r: Head)
    ensures Stepped(s, r, Out) <==> s.pins.notTrack00 && StepDue(s, dt)
    ensures Stepped(s, r, Out) || Stayed(s, r)
    ensures !Stayed(s, r) ==> r.direction == Out
    ensures r.actionDone <==> s.progress.actionDone || !s.pins.notTrack00
    ensures r.trackRegister == if s.pins.notTrack00 then s.regs.track else 0
    ensures s.pins.notTrack00 && !StepDue(s, dt) ==> r.stepTimer == s.timers.step + dt
  {
    var h := HeadOf(s);
    if !s.pins.notTrack00 then Finish(h.(trackRegister := 0))
    else if StepDue(s, dt) then Move(h.(direction := Out), Out, TrackBytes(s.disk.geometry))
    else Wait(h, dt)
  }

  /**
   * Seek: step towards the data register, keeping the track register on
   * the head, until the two registers agree. No cylinder bound is applied.
   */
  function SeekAction(s: Controller, dt: nat): (r: Head)
    ensures var d := if s.regs.track > s.regs.data then Out else In;
      Stepped(s, r, d) <==> s.regs.track != s.regs.data && StepDue(s, dt)
    ensures var d := if s.regs.track > s.regs.data then Out else In;
      Stepped(s, r, d) || Stayed(s, r)
    ensures !Stayed(s, r) ==> r.trackRegister == ToByte(r.cylinder)
    ensures !Stayed(s, r) ==> r.direction == if s.regs.track > s.regs.data then Out else In
    ensures Stayed(s, r) ==> r.trackRegister == s.regs.track
    ensures r.actionDone <==> s.progress.actionDone || s.regs.track == s.regs.data
    ensures s.regs.track != s.regs.data && !StepDue(s, dt) ==> r.stepTimer == s.timers.step + dt
  {
    var h := HeadOf(s);
    if s.regs.track == s.regs.data then Finish(h)
    else if !StepDue(s, dt) then Wait(h, dt)
    else
      var d := if s.regs.track > s.regs.data then Out else In;
      var m := Move(h.(direction := d), d, TrackBytes(s.disk.geometry));
      m.(trackRegister := ToByte(m.cylinder))
  }

  /**
   * Step: one step in the direction last driven, refused at cylinder 0
   * going out (which zeroes the track register) and at the last cylinder
   * going in.
   */
  function StepAction(s: Controller, dt: nat): (r: Head)
    ensures var outClamp := !s.pins.notTrack00 && s.pins.direction == Out;
      var inClamp := s.currentTrack == s.disk.geometry.cylinders - 1 && s.pins.direction == In;
      && (Stepped(s, r, s.pins.direction) <==> !outClamp && !inClamp && StepDue(s, dt))
      && (Stepped(s, r, s.pins.direction) || Stayed(s, r))
      && (r.actionDone <==> s.progress.actionDone || outClamp || inClamp || StepDue(s, dt))
      && (outClamp ==> r.trackRegister == 0)
      && (!outClamp && !Stayed(s, r) ==> r.trackRegister == if s.typeI.trackUpdate then ToByte(r.cylinder) else s.regs.track)
      && (!outClamp && Stayed(s, r) ==> r.trackRegister == s.regs.track)
  {
    var h := HeadOf(s);
    if !s.pins.notTrack00 && s.pins.direction == Out then Finish(h.(trackRegister := 0))
    else if s.currentTrack == s.disk.geometry.cylinders - 1 && s.pins.direction == In then Finish(h)
    else if !StepDue(s, dt) then Wait(h, dt)
    else Finish(Follow(Move(h, s.pins.direction, TrackBytes(s.disk.geometry)), s.typeI.trackUpdate))
  }

  /** Step-In: one step in, refused at the last cylinder. */
  function StepInAction(s: Controller, dt: nat): (r: Head)
    ensures var clamp := s.currentTrack == s.disk.geometry.cylinders - 1;
      && (Stepped(s, r, In) <==> !clamp && StepDue(s, dt))
      && (Stepped(s, r, In) || Stayed(s, r))
      && (r.actionDone <==> s.progress.actionDone || clamp || StepDue(s, dt))
      && (r.trackRegister == if !Stayed(s, r) && s.typeI.trackUpdate then ToByte(r.cylinder) else s.regs.track)
  {
    var h := HeadOf(s);
    if s.currentTrack == s.disk.geometry.cylinders - 1 then Finish(h)
    else if !StepDue(s, dt) then Wait(h, dt)
    else Finish(Follow(Move(h, In, TrackBytes(s.disk.geometry)), s.typeI.trackUpdate))
  }

  /** Step-Out: one step out, refused at cylinder 0 (which zeroes the track register). */
  function StepOutAction(s: Controller, dt: nat): (r: Head)
    ensures var clamp := !s.pins.notTrack00;
      && (Stepped(s, r, Out) <==> !clamp && StepDue(s, dt))
      && (Stepped(s, r, Out) || Stayed(s, r))
      && (r.actionDone <==> s.progress.actionDone || clamp || StepDue(s, dt))
      && (clamp ==> r.trackRegister == 0)
      && (!clamp ==> r.trackRegister == if !Stayed(s, r) && s.typeI.trackUpdate then ToByte(r.cylinder) else s.regs.track)
  {
    var h := HeadOf(s);
    if !s.pins.notTrack00 then Finish(h.(trackRegister := 0))
    else if !StepDue(s, dt) then Wait(h, dt)
    else Finish(Follow(Move(h, Out, TrackBytes(s.disk.geometry)), s.typeI.trackUpdate))
  }

  /** The stepping action of the current Type I command. */
  function TypeIAction(s: Controller, dt: nat): Head
  {
    match s.cmdName
    case Restore => RestoreAction(s, dt)
    case Seek => SeekAction(s, dt)
    case Step => StepAction(s, dt)
    case StepIn => StepInAction(s, dt)
    case StepOut => StepOutAction(s, dt)
    case _ => HeadOf(s)
  }

  /**
   * A head load deferred by the h/V table happens once the action is over:
   * HLD rises, HLT drops and its one-shot is armed from 0, the idle timer
   * restarts, and the deferral is cleared.
   */
  function DelayedLoad(s: Controller): (r: Controller)
    ensures s.delayedHld && !s.pins.hld ==>
              && r.pins.hld && !r.pins.hlt && r.hltTimerActive && r.timers.hlt == 0
              && r.timers.hldIdle == 0 && !r.delayedHld
    ensures !(s.delayedHld && !s.pins.hld) ==> r == s
    ensures r.cmdType == s.cmdType && r.cmdName == s.cmdName && r.typeI == s.typeI
    ensures r.regs == s.regs && r.progress == s.progress && r.pins.intrq == s.pins.intrq
    ensures r.pins.indexPulse == s.pins.indexPulse && r.timers.indexPulse == s.timers.indexPulse
  {
    if s.delayedHld && !s.pins.hld then LoadHead(s).(delayedHld := false) else s
  }

  /** Verify settling: the settling timer runs until it reaches 30 ms. */
  function Settle(s: Controller, dt: nat): (r: Controller)
    ensures r.cmdType == s.cmdType && r.cmdName == s.cmdName && r.regs == s.regs && r.pins == s.pins
    ensures r.progress.commandDone == s.progress.commandDone
    ensures r.timers.indexPulse == s.timers.indexPulse
  {
    var t := s.timers.verifySettling + dt;
    if t >= VerifySettlingUs then
      s.(timers := s.timers.(verifySettling := 0), progress := s.progress.(headSettlingDone := true))
    else
      s.(timers := s.timers.(verifySettling := t))
  }

  /**
   * After the action: a deferred head load happens now; without V the
   * command ends with INTRQ; with V the head settles for 30 ms and the
   * command ends once HLT is high.
   */
  function PostAction(s: Controller, dt: nat): (r: Controller)
    requires !s.progress.commandDone
    ensures r.cmdType == s.cmdType && r.cmdName == s.cmdName
    ensures r.pins.indexPulse == s.pins.indexPulse && r.timers.indexPulse == s.timers.indexPulse
    ensures r.progress.commandDone ==> !Busy(r)
    ensures !r.progress.commandDone ==> r.regs.status == s.regs.status
    ensures r.regs.status & !BusyMask == s.regs.status & !BusyMask
  {
    var s1 := DelayedLoad(s);
    var settling := s1.typeI.verify && !s1.progress.headSettlingDone;
    var done := !s1.typeI.verify || (s1.progress.headSettlingDone && s1.pins.hlt);
    CompleteIf(if settling then Settle(s1, dt) else s1, done, true)
  }

  /** One command step of a Type I command. */
  function TypeIStep(s: Controller, dt: nat): (r: Controller)
    requires !s.progress.commandDone
    ensures r.cmdType == s.cmdType && r.cmdName == s.cmdName
    ensures r.pins.indexPulse == s.pins.indexPulse && r.timers.indexPulse == s.timers.indexPulse
    ensures r.progress.commandDone ==> !Busy(r)
    ensures !r.progress.commandDone ==> r.regs.status == s.regs.status
    ensures r.regs.status & !BusyMask == s.regs.status & !BusyMask
  {
    if !s.progress.actionDone then WithHead(s, TypeIAction(s, dt)) else PostAction(s, dt)
  }

  // ---- Properties ----

  /**
   * Restore, Step, Step-In and Step-Out keep the head on the disk, move it
   * by at most one cylinder per command step, and only once the step-rate
   * interval has elapsed.
   */
  lemma StepStaysOnDisk(s: Controller, dt: nat)
    requires Sensed(s) && TrackInRange(s) && !s.progress.commandDone
    requires s.cmdName in {Restore, Step, StepIn, StepOut}
    ensures TrackInRange(TypeIStep(s, dt))
    ensures -1 <= TypeIStep(s, dt).currentTrack - s.currentTrack <= 1
    ensures TypeIStep(s, dt).currentTrack != s.currentTrack ==> !s.progress.actionDone && StepDue(s, dt)
  {
    if !s.progress.actionDone {
      assert TypeIStep(s, dt) == WithHead(s, TypeIAction(s, dt));
    } else {
      assert TypeIStep(s, dt) == PostAction(s, dt);
    }
  }

  /**
   * A refused step still ends the action: at cylinder 0 Restore, Step
   * (going out) and Step-Out zero the track register; at the last cylinder
   * Step (going in) and Step-In leave every register as it was.
   */
  lemma ClampedStepEndsAction(s: Controller, dt: nat)
    requires Sensed(s) && !s.progress.actionDone && !s.progress.commandDone
    ensures var r := TypeIStep(s, dt);
      && (s.currentTrack == 0 && (s.cmdName in {Restore, StepOut} || (s.cmdName == Step && s.pins.direction == Out)) ==>
            r.progress.actionDone && r.regs.track == 0 && r.currentTrack == 0)
      && (s.currentTrack == s.disk.geometry.cylinders - 1 && (s.cmdName == StepIn || (s.cmdName == Step && s.pins.direction == In)) ==>
            r.progress.actionDone && r.regs == s.regs && r.currentTrack == s.currentTrack)
  {
    assert TypeIStep(s, dt) == WithHead(s, TypeIAction(s, dt));
  }

  /**
   * The track register is left alone by the Step family except to follow the
   * head under the u flag or to be zeroed at the cylinder-0 clamp; Restore
   * only ever zeroes it, when it reaches cylinder 0.
   */
  lemma TrackRegisterRule(s: Controller, dt: nat)
    requires Sensed(s) && !s.progress.actionDone && !s.progress.commandDone
    ensures var r := TypeIStep(s, dt);
      && (s.cmdName in {Step, StepIn, StepOut} && r.regs.track != s.regs.track ==>
            (s.typeI.trackUpdate && r.regs.track == ToByte(r.currentTrack)) || (s.currentTrack == 0 && r.regs.track == 0))
      && (s.cmdName == Restore && r.regs.track != s.regs.track ==>
            r.regs.track == 0 && r.progress.actionDone && r.currentTrack == 0)
  {
  }

  /** Cylinders between the head and the Seek target. */
  function SeekDistance(s: Controller): nat
  {
    if s.currentTrack <= s.regs.data then s.regs.data - s.currentTrack else s.currentTrack - s.regs.data
  }

  /**
   * A Seek step keeps the track register equal to the head position, moves
   * the head one cylinder closer to the data register once the interval has
   * elapsed, and ends the action exactly when the two registers agree. With
   * a target below the cylinder count the head stays on the disk.
   */
  lemma SeekStep(s: Controller, dt: nat)
    requires s.cmdName == Seek && !s.progress.actionDone && !s.progress.commandDone
    requires s.regs.track == s.currentTrack
    ensures var r := TypeIStep(s, dt);
      && r.regs.track == r.currentTrack
      && (r.progress.actionDone <==> s.regs.track == s.regs.data)
      && (r.currentTrack != s.currentTrack <==> s.regs.track != s.regs.data && StepDue(s, dt))
      && (r.currentTrack != s.currentTrack ==> SeekDistance(r) + 1 == SeekDistance(s))
      && (r.currentTrack == s.currentTrack ==> SeekDistance(r) == SeekDistance(s))
      && (TrackInRange(s) && s.regs.data < s.disk.geometry.cylinders ==> TrackInRange(r))
  {
  }

  /**
   * Once the action is over, a command without V ends on that step with
   * BUSY cleared and INTRQ raised; with V it ends exactly when settling had
   * already finished and HLT is high, and settling finishes exactly when
   * the settling timer reaches 30 ms.
   */
  lemma PostActionCompletion(s: Controller, dt: nat)
    requires s.progress.actionDone && !s.progress.commandDone
    ensures var r := TypeIStep(s, dt);
      && (!s.typeI.verify ==> r.progress.commandDone && !Busy(r) && r.pins.intrq)
      && (s.typeI.verify ==> (r.progress.commandDone <==> s.progress.headSettlingDone && r.pins.hlt))
      && (s.typeI.verify && !s.progress.headSettlingDone ==>
            (r.progress.headSettlingDone <==> s.timers.verifySettling + dt >= VerifySettlingUs))
  {
  }
}

=== FILE: transfer.dfy ===
/**
 * The Type II state machine (Read Sector, Write Sector) and the Type III
 * gates: the E delay, HLT sampling, the TG43 line, the start offset of a
 * sector in the disk image and byte assembly into the data register.
 */
module Transfer {
  import opened Bits
  import opened Fdc

  /** Bytes of one side of the disk image. */
  function SideBytes(g: Geometry): int
  {
    g.sectorLength * g.sectorsPerTrack * g.cylinders
  }

  /**
   * Offset of the first byte of the sector the registers select: side 1
   * starts after all of side 0, tracks follow one another, and sectors are
   * numbered from 1.
   */
  function TargetByte(s: Controller): int
  {
    var g := s.disk.geometry;
    (if s.pins.sso then SideBytes(g) else 0)
      + s.regs.track * (g.sectorLength * g.sectorsPerTrack)
      + (s.regs.sector - 1) * g.sectorLength
  }

  /** Byte `i` of the image; a position outside the image reads as 0. */
  function ImageByte(d: Disk, i: int): Byte
  {
    if 0 <= i < |d.image| then d.image[i] as int else 0
  }

  /** The TG43 line reports a head beyond cylinder 43. */
  function UpdateTg43(s: Controller): (r: Controller)
    ensures r.pins.tg43 <==> s.currentTrack > 43
    ensures r == s.(pins := s.pins.(tg43 := r.pins.tg43))
  {
    s.(pins := s.pins.(tg43 := s.currentTrack > 43))
  }

  /** The byte-assembly time has elapsed once `dt` more microseconds are counted (26.67 us). */
  predicate ByteDue(s: Controller, dt: nat)
  {
    (s.timers.assembleByte + dt) * 100 >= AssembleByteCentiUs
  }

  /** The E delay has still to run. */
  predicate DelayPending(s: Controller)
  {
    !s.progress.eDelayDone && s.typeII.delay15ms
  }

  /** The E delay: its timer runs until it reaches 30 ms. */
  function EDelay(s: Controller, dt: nat): (r: Controller)
    ensures r.cmdType == s.cmdType && r.cmdName == s.cmdName && r.regs == s.regs && r.pins == s.pins
    ensures r.progress.commandDone == s.progress.commandDone && r.timers.indexPulse == s.timers.indexPulse
  {
    var t := s.timers.eDelay + dt;
    if t >= EDelayUs then s.(progress := s.progress.(eDelayDone := true), timers := s.timers.(eDelay := 0))
    else s.(timers := s.timers.(eDelay := t))
  }

  /** On the first step past the gates, the byte pointer is placed on the selected sector. */
  function PlacePointer(s: Controller): (r: Controller)
    ensures r.cmdType == s.cmdType && r.cmdName == s.cmdName && r.regs == s.regs && r.pins == s.pins
    ensures r.progress.commandDone == s.progress.commandDone && r.timers == s.timers && r.disk == s.disk
    ensures r.typeII == s.typeII && r.progress.startByteSet
    ensures !s.progress.startByteSet ==> r.diskPointer == TargetByte(s) && r.rwStartByte == TargetByte(s)
    ensures s.progress.startByteSet ==> r == s
  {
    if s.progress.startByteSet then s
    else
      var p := TargetByte(s);
      s.(diskPointer := p, rwStartByte := p, progress := s.progress.(startByteSet := true))
  }

  /**
   * One byte moves from the disk into the data register and DRQ rises; a
   * byte the host had not yet read is lost, which sets status bit 2.
   */
  function AssembleByte(s: Controller): (r: Controller)
    ensures r.cmdType == s.cmdType && r.cmdName == s.cmdName && r.progress == s.progress
    ensures r.typeII == s.typeII && r.disk == s.disk && r.rwStartByte == s.rwStartByte
    ensures r.regs.sector == s.regs.sector && r.pins.tg43 == s.pins.tg43
    ensures r.regs.status & !Track00OrLostDataMask == s.regs.status & !Track00OrLostDataMask
    ensures r.pins.indexPulse == s.pins.indexPulse && r.timers.indexPulse == s.timers.indexPulse
  {
    var status := if s.pins.drq then s.regs.status | Track00OrLostDataMask else s.regs.status;
    s.(regs := s.regs.(status := status, data := ImageByte(s.disk, s.diskPointer)),
       pins := s.pins.(drq := true),
       diskPointer := s.diskPointer + 1,
       timers := s.timers.(assembleByte := 0))
  }

  /**
   * The last byte of a sector has been delivered. A single-record read
   * ends; a multi-record read moves to the next sector and ends once the
   * sector register passes the last sector of the track.
   */
  function EndOfSector(s: Controller): (r: Controller)
    requires !s.progress.commandDone
    ensures r.cmdType == s.cmdType && r.cmdName == s.cmdName && r.regs.data == s.regs.data
    ensures r.diskPointer == s.diskPointer && r.pins.drq == s.pins.drq && r.pins.tg43 == s.pins.tg43
    ensures r.pins.indexPulse == s.pins.indexPulse && r.timers.indexPulse == s.timers.indexPulse
    ensures r.progress.commandDone ==> !Busy(r)
    ensures !r.progress.commandDone ==> r.regs.status == s.regs.status
    ensures r.regs.status & !BusyMask == s.regs.status & !BusyMask
  {
    var multi := s.typeII.multipleRecords;
    var next := ToByte(s.regs.sector + 1);
    var done := !multi || next > s.disk.geometry.sectorsPerTrack;
    CompleteIf(s.(regs := s.regs.(sector := if multi then next else s.regs.sector),
                  progress := s.progress.(startByteSet := s.progress.startByteSet && done)),
               done, true)
  }

  /** Read Sector: count the assembly time, then deliver a byte and check for the end of the sector. */
  function ReadSectorStep(s: Controller, dt: nat): (r: Controller)
    requires !s.progress.commandDone
    ensures r.cmdType == s.cmdType && r.cmdName == s.cmdName && r.pins.tg43 == s.pins.tg43
    ensures r.pins.indexPulse == s.pins.indexPulse && r.timers.indexPulse == s.timers.indexPulse
    ensures r.progress.commandDone ==> !Busy(r)
    ensures !r.progress.commandDone ==> Busy(r) == Busy(s)
    ensures r.regs.status & 0xFA == s.regs.status & 0xFA
  {
    if !ByteDue(s, dt) then s.(timers := s.timers.(assembleByte := s.timers.assembleByte + dt))
    else
      var s1 := AssembleByte(s);
      if s1.diskPointer - s1.rwStartByte >= s.disk.geometry.sectorLength then EndOfSector(s1) else s1
  }

  /**
   * One command step of a Type II command: the E delay, then nothing until
   * HLT is high; then TG43 is driven, the pointer placed, and Read Sector
   * reads on while Write Sector ends at once, with BUSY cleared but no
   * INTRQ.
   */
  function TypeIIStep(s: Controller, dt: nat): (r: Controller)
    requires !s.progress.commandDone
    ensures r.cmdType == s.cmdType && r.cmdName == s.cmdName
    ensures r.pins.indexPulse == s.pins.indexPulse && r.timers.indexPulse == s.timers.indexPulse
    ensures r.progress.commandDone ==> !Busy(r)
    ensures !r.progress.commandDone ==> Busy(r) == Busy(s)
    ensures r.regs.status & 0xFA == s.regs.status & 0xFA
  {
    if DelayPending(s) then EDelay(s, dt)
    else if !s.pins.hlt then s
    else
      var s1 := PlacePointer(UpdateTg43(s));
      if s.cmdName == ReadSector then ReadSectorStep(s1, dt)
      else if s.cmdName == WriteSector then Complete(s1, false)
      else s1
  }

  /** One command step of a Type III command: the same gates and TG43, and no further effect. */
  function TypeIIIStep(s: Controller, dt: nat): (r: Controller)
    ensures r.cmdType == s.cmdType && r.cmdName == s.cmdName && r.regs == s.regs
    ensures r.progress.commandDone == s.progress.commandDone
    ensures r.pins.indexPulse == s.pins.indexPulse && r.timers.indexPulse == s.timers.indexPulse
  {
    if DelayPending(s) then EDelay(s, dt)
    else if !s.pins.hlt then s
    else UpdateTg43(s)
  }

  // ---- Properties ----

  /**
   * For a track below the cylinder count and a sector between 1 and the
   * sectors per track, the selected sector lies wholly inside a two-sided
   * image.
   */
  lemma {:induction false} TargetByteInImage(s: Controller)
    requires ValidGeometry(s.disk.geometry)
    requires s.regs.track < s.disk.geometry.cylinders
    requires 1 <= s.regs.sector <= s.disk.geometry.sectorsPerTrack
    ensures 0 <= TargetByte(s)
    ensures TargetByte(s) + s.disk.geometry.sectorLength <= 2 * SideBytes(s.disk.geometry)
  {
    var g := s.disk.geometry;
    var l, n, c := g.sectorLength, g.sectorsPerTrack, g.cylinders;
    var t, k := s.regs.track, s.regs.sector - 1;
    assert 0 <= t * (l * n) by { MulNonNegative(t, l * n); MulNonNegative(l, n); }
    assert 0 <= k * l by { MulNonNegative(k, l); }
    assert 0 <= SideBytes(g) by { MulNonNegative(l, n); MulNonNegative(l * n, c); }
    // Within a track: k * l + l = (k + 1) * l <= n * l.
    assert k * l + l <= l * n by { MulMonotone(k + 1, n, l); }
    // Within a side: t * (l n) + l n = (t + 1) * (l n) <= c * (l n).
    assert t * (l * n) + l * n <= SideBytes(g) by { MulMonotone(t + 1, c, l * n); }
  }

  lemma MulNonNegative(a: int, b: int)
    requires 0 <= a && 0 <= b
    ensures 0 <= a * b
  {
  }

  lemma MulMonotone(a: int, b: int, m: int)
    requires 0 <= a <= b && 0 <= m
    ensures a * m <= b * m
  {
  }

  /** Side of the disk the SSO line selects. */
  function Side(s: Controller): nat
  {
    if s.pins.sso then 1 else 0
  }

  /** The start offset counts whole sectors: side, track and sector as digits of one number. */
  lemma {:induction false} TargetByteDigits(s: Controller)
    ensures var g := s.disk.geometry;
      TargetByte(s) == ((Side(s) * g.cylinders + s.regs.track) * g.sectorsPerTrack + (s.regs.sector - 1)) * g.sectorLength
  {
    var g := s.disk.geometry;
    var l, n, c := g.sectorLength, g.sectorsPerTrack, g.cylinders;
    var d, t, k := Side(s), s.regs.track, s.regs.sector - 1;
    assert (if s.pins.sso then SideBytes(g) else 0) == d * c * n * l;
    assert t * (l * n) == t * n * l;
    calc {
      ((d * c + t) * n + k) * l;
      (d * c + t) * n * l + k * l;
      { assert (d * c + t) * n == d * c * n + t * n; }
      (d * c * n + t * n) * l + k * l;
      d * c * n * l + t * n * l + k * l;
    }
  }

  /**
   * Distinct sectors start at distinct offsets: the side, track and sector
   * registers can be read back from the offset.
   */
  lemma {:induction false} TargetByteInjective(s: Controller, t: Controller)
    requires s.disk.geometry == t.disk.geometry && ValidGeometry(s.disk.geometry)
    requires s.regs.track < s.disk.geometry.cylinders && t.regs.track < s.disk.geometry.cylinders
    requires 1 <= s.regs.sector <= s.disk.geometry.sectorsPerTrack
    requires 1 <= t.regs.sector <= s.disk.geometry.sectorsPerTrack
    requires TargetByte(s) == TargetByte(t)
    ensures s.pins.sso == t.pins.sso && s.regs.track == t.regs.track && s.regs.sector == t.regs.sector
  {
    var g := s.disk.geometry;
    TargetByteDigits(s);
    TargetByteDigits(t);
    DecomposeUnique(g.sectorLength, s.regs.sector - 1, t.regs.sector - 1, g.sectorsPerTrack,
                    Side(s) * g.cylinders + s.regs.track, Side(t) * g.cylinders + t.regs.track);
    DecomposeUnique(1, s.regs.track, t.regs.track, g.cylinders, Side(s), Side(t));
  }

  /** A number written as q * m + r with 0 <= r < m has only one such form (mixed-radix digits). */
  lemma DecomposeUnique(unit: int, r1: int, r2: int, m: int, q1: int, q2: int)
    requires 0 < unit && 0 <= r1 < m && 0 <= r2 < m
    requires (q1 * m + r1) * unit == (q2 * m + r2) * unit
    ensures q1 == q2 && r1 == r2
  {
    CancelUnit(q1 * m + r1, q2 * m + r2, unit);
    var d := q1 - q2;
    assert d * m == q1 * m - q2 * m;
    if d > 0 {
      AtLeastOnce(d, m);
      assert false;
    } else if d < 0 {
      assert (-d) * m == q2 * m - q1 * m;
      AtLeastOnce(-d, m);
      assert false;
    }
  }

  lemma AtLeastOnce(d: int, m: int)
    requires 1 <= d && 0 <= m
    ensures m <= d * m
  {
    assert d * m == (d - 1) * m + m;
  }

  lemma CancelUnit(a: int, b: int, unit: int)
    requires 0 < unit && a * unit == b * unit
    ensures a == b
  {
    assert (a - b) * unit == a * unit - b * unit;
  }

  /**
   * Past the gates, when the assembly time has elapsed a Read Sector step
   * delivers the byte under the pointer (the first byte of the selected
   * sector when the pointer was not yet placed), raises DRQ, advances the
   * pointer, and sets status bit 2 exactly when DRQ was still high or the
   * bit was already set.
   */
  lemma ByteDelivery(s: Controller, dt: nat)
    requires s.cmdName == ReadSector && !s.progress.commandDone
    requires !DelayPending(s) && s.pins.hlt && ByteDue(s, dt)
    ensures var r := TypeIIStep(s, dt);
      var p := if s.progress.startByteSet then s.diskPointer else TargetByte(s);
      && r.regs.data == ImageByte(s.disk, p)
      && r.pins.drq
      && r.diskPointer == p + 1
      && (r.regs.status & Track00OrLostDataMask != 0 <==> s.regs.status & Track00OrLostDataMask != 0 || s.pins.drq)
  {
    var s1 := PlacePointer(UpdateTg43(s));
    var s2 := AssembleByte(s1);
    assert s2.regs.status & Track00OrLostDataMask != 0 <==> s.regs.status & Track00OrLostDataMask != 0 || s.pins.drq;
  }

  /**
   * A first step past the gates before the byte-assembly time elapses:
   * the pointer is placed on the selected sector and the assembly timer
   * counts, but no byte is delivered and the command goes on.
   */
  lemma PlacedEarly(s: Controller, dt: nat)
    requires s.cmdName == ReadSector && !s.progress.commandDone
    requires !DelayPending(s) && s.pins.hlt && !ByteDue(s, dt) && !s.progress.startByteSet
    ensures var r := TypeIIStep(s, dt);
      && r.progress.startByteSet && r.rwStartByte == TargetByte(s) && r.diskPointer == TargetByte(s)
      && r.regs == s.regs && r.pins.drq == s.pins.drq && !r.progress.commandDone
      && r.timers.assembleByte == s.timers.assembleByte + dt
  {
    var s1 := PlacePointer(UpdateTg43(s));
    assert s1.diskPointer == TargetByte(s) && s1.rwStartByte == TargetByte(s);
    assert TypeIIStep(s, dt) == ReadSectorStep(s1, dt);
  }

  /**
   * The first byte of a single-record read: the step places the pointer on
   * the selected sector, delivers that sector's first byte with DRQ high,
   * and ends the command only when the sector is a single byte long.
   */
  lemma FirstByte(s: Controller, dt: nat)
    requires s.cmdName == ReadSector && !s.progress.commandDone && !s.typeII.multipleRecords
    requires !DelayPending(s) && s.pins.hlt && ByteDue(s, dt) && !s.progress.startByteSet
    ensures var r := TypeIIStep(s, dt);
      && r.rwStartByte == TargetByte(s) && r.diskPointer == TargetByte(s) + 1
      && r.regs.data == ImageByte(s.disk, TargetByte(s)) && r.pins.drq
      && r.progress.startByteSet && r.typeII == s.typeII && r.disk == s.disk
      && r.progress.eDelayDone == s.progress.eDelayDone && r.pins.hlt
      && (r.progress.commandDone <==> s.disk.geometry.sectorLength <= 1)
      && (r.progress.commandDone ==> !Busy(r) && r.pins.intrq)
      && (!r.progress.commandDone ==> Busy(r) == Busy(s))
  {
    var s1 := PlacePointer(UpdateTg43(s));
    assert s1.diskPointer == TargetByte(s) && s1.rwStartByte == TargetByte(s);
    assert TypeIIStep(s, dt) == ReadSectorStep(s1, dt);
    PlacedByte(s1, dt);
    PlacedByteEnds(s1, dt);
  }

  /** The byte a read delivers with the pointer still where it was placed. */
  lemma PlacedByte(s: Controller, dt: nat)
    requires s.cmdName == ReadSector && !s.progress.commandDone && !s.typeII.multipleRecords
    requires ByteDue(s, dt) && s.diskPointer == s.rwStartByte
    ensures var r := ReadSectorStep(s, dt);
      && r.rwStartByte == s.rwStartByte && r.diskPointer == s.diskPointer + 1
      && r.regs.data == ImageByte(s.disk, s.diskPointer) && r.pins.drq
      && r.progress.startByteSet == s.progress.startByteSet && r.typeII == s.typeII && r.disk == s.disk
      && r.progress.eDelayDone == s.progress.eDelayDone && r.pins.hlt == s.pins.hlt
  {
    PlacedByteEnds(s, dt);
  }

  /** That byte ends the command exactly when the sector is a single byte long. */
  lemma PlacedByteEnds(s: Controller, dt: nat)
    requires s.cmdName == ReadSector && !s.progress.commandDone && !s.typeII.multipleRecords
    requires ByteDue(s, dt) && s.diskPointer == s.rwStartByte
    ensures var r := ReadSectorStep(s, dt);
      && (r.progress.commandDone <==> s.disk.geometry.sectorLength <= 1)
      && (r.progress.commandDone ==> !Busy(r) && r.pins.intrq)
      && (!r.progress.commandDone ==> Busy(r) == Busy(s) && r == AssembleByte(s))
      && (r.progress.commandDone ==> r == EndOfSector(AssembleByte(s)))
  {
    var s1 := AssembleByte(s);
    assert s1.diskPointer - s1.rwStartByte == 1;
    if s.disk.geometry.sectorLength <= 1 {
      assert ReadSectorStep(s, dt) == EndOfSector(s1);
    } else {
      assert ReadSectorStep(s, dt) == s1;
    }
  }

  /** Before the assembly time has elapsed, a Read Sector step delivers nothing. */
  lemma NoByteEarly(s: Controller, dt: nat)
    requires s.cmdName == ReadSector && !s.progress.commandDone && !ByteDue(s, dt)
    ensures var r := TypeIIStep(s, dt);
      && r.regs == s.regs && r.pins.drq == s.pins.drq && !r.progress.commandDone
  {
    if !DelayPending(s) && s.pins.hlt {
      var s1 := PlacePointer(UpdateTg43(s));
      assert !ByteDue(s1, dt);
      assert TypeIIStep(s, dt) == ReadSectorStep(s1, dt);
    }
  }

  /**
   * A single-record read ends, with BUSY cleared and INTRQ raised, on the
   * byte that completes the sector, and not before.
   */
  lemma SingleRecordEnd(s: Controller, dt: nat)
    requires s.cmdName == ReadSector && !s.progress.commandDone && !s.typeII.multipleRecords
    requires !DelayPending(s) && s.pins.hlt && ByteDue(s, dt) && s.progress.startByteSet
    ensures var r := TypeIIStep(s, dt);
      && (r.progress.commandDone <==> s.diskPointer + 1 - s.rwStartByte >= s.disk.geometry.sectorLength)
      && (r.progress.commandDone ==> !Busy(r) && r.pins.intrq)
  {
  }

  /**
   * A multi-record read moves to the next sector (modulo 256) at the end of
   * each sector and ends, with INTRQ, once the sector register exceeds the
   * sectors per track; otherwise the pointer is placed afresh next time.
   */
  lemma MultiRecordEnd(s: Controller, dt: nat)
    requires s.cmdName == ReadSector && !s.progress.commandDone && s.typeII.multipleRecords
    requires !DelayPending(s) && s.pins.hlt && ByteDue(s, dt) && s.progress.startByteSet
    requires s.diskPointer + 1 - s.rwStartByte >= s.disk.geometry.sectorLength
    ensures var r := TypeIIStep(s, dt);
      && r.regs.sector == ToByte(s.regs.sector + 1)
      && (r.progress.commandDone <==> r.regs.sector > s.disk.geometry.sectorsPerTrack)
      && (r.progress.commandDone ==> !Busy(r) && r.pins.intrq)
      && (!r.progress.commandDone ==> !r.progress.startByteSet)
  {
  }

  /** Write Sector ends on its first step past the gates, with BUSY cleared and INTRQ left as it was. */
  lemma WriteSectorEnds(s: Controller, dt: nat)
    requires s.cmdName == WriteSector && !s.progress.commandDone
    requires !DelayPending(s) && s.pins.hlt
    ensures var r := TypeIIStep(s, dt);
      && r.progress.commandDone && !Busy(r) && r.pins.intrq == s.pins.intrq
  {
  }

  /**
   * While the E delay runs, a Type II or III step moves only its timer, and
   * the delay finishes exactly when the timer reaches 30 ms.
   */
  lemma DelayGate(s: Controller, dt: nat)
    requires !s.progress.commandDone && DelayPending(s)
    ensures TypeIIStep(s, dt).regs == s.regs && TypeIIStep(s, dt).pins == s.pins
    ensures TypeIIIStep(s, dt).regs == s.regs && TypeIIIStep(s, dt).pins == s.pins
    ensures TypeIIStep(s, dt).diskPointer == s.diskPointer
    ensures TypeIIStep(s, dt).progress.eDelayDone <==> s.timers.eDelay + dt >= EDelayUs
  {
  }

  /** After the E delay, a Type II or III step does nothing while HLT is low. */
  lemma HltGate(s: Controller, dt: nat)
    requires !s.progress.commandDone && !DelayPending(s) && !s.pins.hlt
    ensures TypeIIStep(s, dt) == s && TypeIIIStep(s, dt) == s
  {
  }

  /** Past both gates, TG43 reports whether the head is beyond cylinder 43. */
  lemma Tg43PastGates(s: Controller, dt: nat)
    requires !s.progress.commandDone && !DelayPending(s) && s.pins.hlt
    ensures TypeIIStep(s, dt).pins.tg43 == (s.currentTrack > 43)
    ensures TypeIIIStep(s, dt).pins.tg43 == (s.currentTrack > 43)
  {
  }
}
